=== FILE: README.md ===
# traceya offline-first collection app — a Dafny model

traceya lets herb farmers record collection events (species, GPS fix, moisture,
notes, photos) on a phone that is often offline. Events are kept in a local
IndexedDB database ("TraceyaDB", through Dexie), shown on a dashboard with
per-status counts, retried or deleted there, and sent either by a background
sync engine or by SMS. A service worker precaches the app shell and answers
requests from Cache Storage when the network is gone. A mock OTP sign-in
guards every page.

This project models that core in Dafny:

| module | file | what it models |
|---|---|---|
| `Store` | store.dfy | the database records, a Dexie table with an auto-incremented key, `initializeSettings` |
| `Auth` | auth.dfy | the authentication manager: OTP check, token, state and its `localStorage` copy |
| `Login` | login.dfy | the sign-in page: OTP input sanitising, submit guard, sign-in handler |
| `Guard` | auth_guard.dfy | the route guard's redirect and render decision |
| `Home` | home.dfy | the landing route |
| `Capture` | capture.dfy | the capture page: validation, event creation, the three save paths, the photo list |
| `Photos` | photo_capture.dfy | the photo widget's limit guard and removal |
| `Geo` | location_capture.dfy | the location widget: accuracy bands, one capture attempt |
| `Camera` | camera.dfy | the photo record and the hex step of the content hash |
| `Dashboard` | dashboard.dfy | loading, counting, retrying, deleting, SMS sending, the auto-sync interval |
| `SyncBadge` | sync_status.dfy | the sync badge: pending count, badge selection, last-sync text, manual and background sync |
| `Install` | pwa_install.dfy | the install-prompt card's state machine |
| `ServiceWorker` | service_worker.dfy | install, activate, fetch routing, background sync, notification click |
| `Text`, `Browser`, `Wrappers` | text.dfy, browser.dfy, wrappers.dfy | JavaScript string helpers, the router and `localStorage`, `Option` |
| `Services` | services.dfy | stand-ins for the sync engine and the SMS transport, whose source is not part of this model |

Modelling conventions:

- Each React event handler or effect is one atomic method. A `setTimeout` callback
  is a separate method: `CompleteRetry`, `CompleteSyncNow`, `OnDelayElapsed`,
  `ClearResult`.
- Component state is a class's fields. A Dexie table is `Store.Table<T>`: a map
  from key to record, the keys in ascending order (the order `toArray()` returns),
  and the next key to hand out.
- Values the code receives from the outside world are parameters:
  - the clock, as integer milliseconds;
  - `Number(...)`, as `parse`;
  - the network's answer;
  - the user's confirmation;
  - the random retry outcome;
  - the geolocation and camera results;
  - whether the SMS transport succeeded.
- Timestamps that the source stores as ISO strings are integer milliseconds here.

## Model

| member | source | states |
|---|---|---|
| Store.Table.Add | lib/db.ts:56-60 | an added record gets a key not already present, and every existing row is unchanged |
| Store.Table.Update | app/dashboard/page.tsx:87-91 | `update(id, changes)` changes only the row with that key, reports 1 iff it existed, and keeps the key order |
| Store.Table.Delete | app/dashboard/page.tsx:113 | `delete(id)` removes exactly that key's row; the other rows and their order stay |
| Store.InitializeSettings | lib/db.ts:67-78 | a row is inserted iff the settings table was empty; that row is exactly (15, "+1234567890", "en", "", null); otherwise nothing changes |
| Store.InitializeSettingsTwice | lib/db.ts:67-78 | the second call reports that it added nothing; a table that was not empty keeps exactly its rows, an empty one ends with the single default row: idempotence |
| Text.Last6 | lib/auth.ts:48 | `slice(-6)` yields the last min(6, length) characters, a suffix of the input |
| Auth.Token | lib/auth.ts:49 | the token is "token_", then the farmer id, then "_", then the decimal clock value |
| Auth.TokensDiffer | lib/auth.ts:49 | two sign-ins of one farmer at different instants get different tokens |
| Auth.LoginStep | lib/auth.ts:46-70 | login succeeds iff the code is "123456" or the id's last six characters; on success the state is (true, id, token); on failure the state is unchanged and the error is the fixed message |
| Auth.LoginAuthenticates | lib/auth.ts:48-56 | an accepted code with a non-empty id leaves `isAuthenticated()` true |
| Auth.EmptyIdLoginNotAuthenticated | lib/auth.ts:48-56 | with an empty id, the empty code is accepted, yet `isAuthenticated()` stays false |
| Auth.Authenticated | lib/auth.ts:85-87 | `isAuthenticated()`: the flag is set and the farmer id is neither null nor empty; `LoginAuthenticates` and `ShownProtectedPageHasFarmer` build on it |
| Auth.AuthManager.constructor | lib/auth.ts:22-38 | a readable stored state is loaded; unreadable text clears auth and the stored entry; an empty entry or no entry leaves the signed-out state, and an empty entry stays stored |
| Auth.AuthManager.GetAuthState | lib/auth.ts:81-83 | the current state, as a value the caller cannot change the manager through |
| Auth.AuthManager.SaveAuthState | lib/auth.ts:40-44 | the stored entry becomes the current state |
| Auth.AuthManager.Login | lib/auth.ts:46-70 | the new state and the result are those of `LoginStep`; on success the state is saved and only the first settings row's farmer id changes; on failure nothing changes |
| Auth.AuthManager.Logout | lib/auth.ts:72-79 | the state is reset to signed out and saved |
| Auth.AuthManager.ClearAuth | lib/auth.ts:97-102 | signed out, and the stored entry removed |
| Login.Digits | app/login/page.tsx:119 | `replace(/\D/g, "")` yields only digits and keeps every digit of the input as often as it occurs; never longer than the input |
| Login.SanitizeOtp | app/login/page.tsx:119 | the OTP field holds at most 6 characters, all digits, exactly the first min(6, n) digits of the input |
| Login.DigitsIsSubsequence | app/login/page.tsx:119 | the kept digits occur in the input in the same order |
| Login.SanitizeKeepsOrder | app/login/page.tsx:119 | the sanitised code is a subsequence of what was typed |
| Login.SanitizeIdempotent | app/login/page.tsx:119 | sanitising a sanitised code changes nothing |
| Login.FailureMessage | app/login/page.tsx:46 | a refused sign-in shows the manager's error when it is a non-empty string, and "Login failed" otherwise |
| Login.LoginPage.OnOtpInput | app/login/page.tsx:119 | the field becomes the sanitised input |
| Login.LoginPage.SubmitDisabled | app/login/page.tsx:135 | the button is disabled while loading or while either trimmed field is empty; `EnabledSubmitPassesValidation` is its partner |
| Login.LoginPage.HandleLogin | app/login/page.tsx:23-53 | a blank id is reported before a blank code, and neither reaches `login`; otherwise `login` receives both values trimmed; success pushes "/dashboard", failure shows the reason; loading always ends |
| Login.LoginPage.Submit | app/login/page.tsx:40-47 | `login` decides the new auth state; success pushes "/dashboard" and leaves no error, failure pushes nothing and shows the reason |
| Login.LoginPage.SendOtp | app/login/page.tsx:55-64 | a blank id only sets "Please enter your Farmer ID first"; otherwise the error clears and the alert names 123456 and the id's last six characters |
| Login.LoginPage.ShowOnboarding | app/login/page.tsx:66-70 | the onboarding flag is removed and "/onboarding" pushed |
| Login.EnabledSubmitPassesValidation | app/login/page.tsx:23-53 | pressing the enabled button (line 135): `handleLogin` reaches `login` with the trimmed fields, and its message is never one of the two validation messages |
| Guard.Redirect | components/auth-guard.tsx:26-30 | "/login" iff sign-in is required and missing; "/dashboard" iff it is not required but present; no redirect iff the page fits |
| Guard.Render | components/auth-guard.tsx:35-55 | the spinner exactly while loading; children only when the page's requirement matches the sign-in state |
| Guard.RenderIffNoRedirect | components/auth-guard.tsx:26-55 | once loaded, the guard renders its children exactly when `checkAuth` pushes no redirect, and renders nothing exactly when it pushes one |
| Guard.AuthGuard.constructor | components/auth-guard.tsx:15-17 | `requireAuth` defaults to true; the guard starts loading and unauthenticated |
| Guard.AuthGuard.RendersChildren | components/auth-guard.tsx:35-55 | the guard's current render is its children (`Render` of its fields) |
| Guard.AuthGuard.CheckAuth | components/auth-guard.tsx:21-31 | loading ends; at most one push, the one `Redirect` names; a redirecting guard never renders its children |
| Guard.ShownProtectedPageHasFarmer | components/auth-guard.tsx:47-55 | a protected page that renders has a non-empty farmer id |
| Home.HomeRoute | app/page.tsx:12-27 | onboarding first, whatever the sign-in state; then "/dashboard" when signed in, else "/login" |
| Home.OnboardingIgnoresAuth | app/page.tsx:14-19 | before onboarding is completed the sign-in state makes no difference |
| Home.CheckAuthAndRedirect | app/page.tsx:12-27 | exactly one navigation, to `HomeRoute` |
| Capture.ValidateForm | app/capture/page.tsx:45-50 | the first failing check in the order species, moisture (empty or not a number), location; none iff all pass |
| Capture.StoredPhotos | app/capture/page.tsx:70-73 | same count and order as the captured photos, with only URL and hash kept |
| Capture.CreateCollectionEvent | app/capture/page.tsx:52-80 | pending, with no chain transaction and no error; createdAt = updatedAt = timestamp = now; notes trimmed; location is lat/lon/accuracy only; photos as `StoredPhotos` |
| Capture.RemovePhoto | app/capture/page.tsx:37-39 | the removed photo is gone, and every other photo stays |
| Capture.RemoveSingle | app/capture/page.tsx:37-39 | removing a photo that occurs once drops exactly that entry and keeps the rest in order |
| Capture.CapturePage.HandlePhotoCapture | app/capture/page.tsx:33-35 | the new photo goes at the end |
| Capture.CapturePage.HandlePhotoRemove | app/capture/page.tsx:37-39 | the list becomes `RemovePhoto` of the old list |
| Capture.CapturePage.HandleLocationCapture | app/capture/page.tsx:41-43 | the location is the one reported |
| Capture.CapturePage.HandleSaveOffline | app/capture/page.tsx:82-109 | an invalid form only sets the first error (nothing is stored or cleared); a valid one adds the created event under a fresh key, clears the form and pushes "/dashboard" |
| Capture.CapturePage.HandleSyncNow | app/capture/page.tsx:111-138 | as saving offline, but the stored event's status is uploading |
| Capture.CapturePage.HandleSendSms | app/capture/page.tsx:140-159 | an invalid form only sets the error; a valid one stores the pending event, then sends it once through the stored or default gateway; a failed send sets "Failed to send SMS" |
| Capture.CapturePage.Commit | app/capture/page.tsx:92-103 | the event is added under a fresh key with every other row unchanged; the form is cleared and "/dashboard" pushed |
| Capture.CapturePage.StoreAndSend | app/capture/page.tsx:147-155 | the event is added under a fresh key, then sent once through the first settings row's gateway or the default; a failed send sets "Failed to send SMS" |
| Capture.CompleteSyncNow | app/capture/page.tsx:128-130 | the timer sets only the status, to synced; a missing row leaves the table unchanged |
| Photos.PhotoCapture.constructor | components/photo-capture.tsx:16-17 | `maxPhotos` defaults to 3; the widget is not capturing |
| Photos.PhotoCapture.CanCapture | components/photo-capture.tsx:50 | the "Add Photo" button is enabled when not capturing and below `maxPhotos` |
| Photos.PhotoCapture.HandleFileCapture | components/photo-capture.tsx:19-32 | at the limit nothing happens; below it, one capture is attempted, and either one photo is reported or the alert shown; never more than `maxPhotos` photos; capturing ends |
| Photos.PhotoCapture.HandleRemovePhoto | components/photo-capture.tsx:34-37 | the object URL is revoked, then the photo is reported removed |
| Geo.BandOf | components/location-capture.tsx:41-51 | Excellent iff accuracy ≤ 10 m; Good iff 10 m < accuracy ≤ 50 m; Poor iff accuracy > 50 m |
| Geo.AccuracyColor | components/location-capture.tsx:41-45 | green up to 10 m, yellow up to 50 m, red beyond; `ColorAndTextAgree` ties it to `BandOf` |
| Geo.AccuracyText | components/location-capture.tsx:47-51 | "Excellent" up to 10 m, "Good" up to 50 m, "Poor" beyond; `ColorAndTextAgree` ties it to `BandOf` |
| Geo.ColorAndTextAgree | components/location-capture.tsx:41-51 | `getAccuracyColor` and `getAccuracyText` always describe the same band |
| Geo.BandMonotone | components/location-capture.tsx:41-51 | a larger radius never gets a better band |
| Geo.LocationCapture.CaptureLocation | components/location-capture.tsx:26-39 | a fix is reported and clears the error; a thrown Error shows its message; any other throw shows "Failed to get location"; capturing ends |
| Geo.ShouldAutoCapture | components/location-capture.tsx:20-22 | the effect captures when `autoCapture` (default true) is on and no location is held |
| Geo.LocationCapture.AutoCapture | components/location-capture.tsx:20-39 | one capture attempt, with `CaptureLocation`'s outcomes, exactly when `ShouldAutoCapture` holds, otherwise nothing changes; once a fix is reported and held, the effect no longer captures |
| Camera.ByteToHex | lib/camera.ts:128 | each byte becomes exactly two lower-case hex digits, with a leading "0" below 16, whose value is the byte |
| Camera.HexEncode | lib/camera.ts:128 | the hex string has two hex digits per byte |
| Camera.DecodeEncode | lib/camera.ts:128 | decoding the hex string gives back the digest bytes |
| Camera.EncodeInjective | lib/camera.ts:125-128 | different digests have different hashes |
| Camera.DigestLength | lib/camera.ts:126-128 | a 32-byte SHA-256 digest gives a 64-character hash |
| Services.GatewayNumber | app/dashboard/page.tsx:124 | the first settings row's gateway, or "+1234567890" when there is no row or the gateway is empty; never empty |
| Dashboard.CountStatus | app/dashboard/page.tsx:67-72 | a count by exact status, never more than the number of events |
| Dashboard.StatsOf | app/dashboard/page.tsx:67-72 | the four cards' counts; `StatsSum` shows they add up to the number of loaded events |
| Dashboard.StatsSum | app/dashboard/page.tsx:67-72 | the four counts add up to the number of loaded events |
| Dashboard.ForFarmer | app/dashboard/page.tsx:62 | exactly the rows with that farmer id, each as often as stored |
| Dashboard.SortNewestFirst | app/dashboard/page.tsx:62 | the same rows (a permutation), with createdAt never increasing |
| Dashboard.InsertNewestCount | app/dashboard/page.tsx:62 | inserting a row into the sorted list adds one to its status's count and leaves the others |
| Dashboard.SortCount | app/dashboard/page.tsx:62-72 | sorting newest first keeps every status count |
| Dashboard.ForFarmerCount | app/dashboard/page.tsx:62-72 | one farmer's events never have more of a status than the whole table |
| Dashboard.ForFarmerAll | app/dashboard/page.tsx:62 | when every event is the farmer's, the farmer's query keeps them all, in order |
| Dashboard.QueryByFarmerSpec | app/dashboard/page.tsx:59-62 | the loaded list is exactly the farmer's events, newest first |
| Dashboard.Visible | app/dashboard/page.tsx:230 | the first min(10, n) events, in order |
| Dashboard.ShowViewAll | app/dashboard/page.tsx:240 | "View All" shows when there are more than 10 events; `ViewAllIffTruncated` is its partner |
| Dashboard.ViewAllIffTruncated | app/dashboard/page.tsx:240 | "View All" shows iff the visible list leaves events out |
| Dashboard.AutoSyncInterval | app/dashboard/page.tsx:42-44 | the stored interval, or 15 when there is no row or it is 0; never 0 |
| Dashboard.StartRetry | app/dashboard/page.tsx:87-91 | status uploading, no error, updatedAt now; every other field unchanged |
| Dashboard.FinishRetry | app/dashboard/page.tsx:94-100 | synced with no error iff success; failed with "Network timeout" otherwise; never pending; only status, lastError and updatedAt change |
| Dashboard.RetryTransitions | app/dashboard/page.tsx:85-102 | retrying a failed event follows failed→uploading→synced or failed |
| Dashboard.RetryLeavesSynced | app/dashboard/page.tsx:85-91 | retry does not check the status: a synced event goes back to uploading |
| Dashboard.DashboardPage.LoadEvents | app/dashboard/page.tsx:56-79 | with no farmer id (null or empty) the list and counts stay; otherwise the farmer's events newest first, and their counts; loading ends |
| Dashboard.DashboardPage.RetryEvent | app/dashboard/page.tsx:85-108 | only the chosen row changes, by `StartRetry`; then the page reloads |
| Dashboard.DashboardPage.CompleteRetry | app/dashboard/page.tsx:94-102 | only the chosen row changes, by `FinishRetry`; then the page reloads |
| Dashboard.DashboardPage.DeleteEvent | app/dashboard/page.tsx:110-119 | without confirmation nothing changes; with it exactly that row is removed and the page reloads |
| Dashboard.DashboardPage.SendSms | app/dashboard/page.tsx:121-129 | one SMS through the stored or default gateway; the events table is untouched |
| Dashboard.DashboardPage.Mount | app/dashboard/page.tsx:29-48 | settings are initialised (never empty afterwards), the farmer's events and counts loaded, connectivity read, and auto-sync started with `AutoSyncInterval` |
| Dashboard.DashboardPage.Connect | app/dashboard/page.tsx:39-47 | the online flag is the browser's; auto-sync runs every `AutoSyncInterval` minutes of the first settings row |
| Dashboard.DashboardPage.Unmount | app/dashboard/page.tsx:49-53 | auto-sync stops |
| Dashboard.DashboardPage.SetOnline | app/dashboard/page.tsx:34-35 | the online flag follows the window event |
| SyncBadge.PendingCount | components/sync-status.tsx:59 | events that are pending or failed, never more than all events |
| SyncBadge.PendingCountIsPendingPlusFailed | components/sync-status.tsx:59 | over the same rows, the badge's count is the pending count plus the failed count |
| SyncBadge.BadgeCountsEveryFarmer | components/sync-status.tsx:59 | the badge counts every farmer's events (line 59) while the dashboard counts only the signed-in farmer's (app/dashboard/page.tsx:62): the badge never shows fewer than the dashboard's pending and failed cards together, and exactly as many when all events are that farmer's |
| SyncBadge.MinutesToHours | components/sync-status.tsx:94-99 | flooring the minutes by 60 equals flooring the milliseconds by the hour |
| SyncBadge.HoursToDays | components/sync-status.tsx:99-102 | flooring the hours by 24 equals flooring the milliseconds by the day |
| SyncBadge.FormatLastSync | components/sync-status.tsx:88-104 | "Never" without a time; "Just now" under a minute; otherwise whole minutes, hours or days, rounded down, in the largest unit below the next |
| SyncBadge.BadgeOf | components/sync-status.tsx:106-125 | offline beats syncing, which beats pending, which beats up to date; each badge shows iff its condition holds |
| SyncBadge.StatusColor | components/sync-status.tsx:106-111 | grey offline, blue syncing, yellow pending, green otherwise; `SelectorsAgree` ties it to `BadgeOf` |
| SyncBadge.StatusText | components/sync-status.tsx:113-118 | the offline label, "Syncing...", the pending count and label, or "Up to date"; `SelectorsAgree` ties it to `BadgeOf` |
| SyncBadge.StatusIcon | components/sync-status.tsx:120-125 | WifiOff, spinner, alert or check; `SelectorsAgree` ties it to `BadgeOf` |
| SyncBadge.SelectorsAgree | components/sync-status.tsx:106-125 | colour, icon and text (all four texts, through `BadgeText`) always describe the same badge |
| SyncBadge.ShowSyncButton | components/sync-status.tsx:134 | the Sync button shows online, not syncing, with something pending; `SyncButtonIffPendingBadge` is its partner |
| SyncBadge.SyncButtonIffPendingBadge | components/sync-status.tsx:134 | the Sync button shows iff the badge is the pending one |
| SyncBadge.StaleGuardSyncsOffline | components/sync-status.tsx:30-37 | as written, a background-sync message starts a sync while offline, and also during a sync |
| SyncBadge.MessageSyncRespectsGuard | components/sync-status.tsx:30-37 | the corrected listener starts a sync only where the as-written one does; they differ exactly on background-sync messages that arrive offline or during a sync; the as-written one syncs on every background-sync message |
| SyncBadge.ResultText | components/sync-status.tsx:145 | "✓ n synced" on success, "✗ n failed" otherwise |
| SyncBadge.SyncStatus.LoadSyncStatus | components/sync-status.tsx:50-68 | lastSync from the first settings row (kept when there is none), pending count as `PendingCount`, syncing flag from the engine |
| SyncBadge.SyncStatus.HandleManualSync | components/sync-status.tsx:70-86 | offline or already syncing: nothing happens; otherwise one sync call, its result shown and the status reloaded, and syncing ends |
| SyncBadge.SyncStatus.RunSync | components/sync-status.tsx:73-85 | past the guard: one sync call, the result shown and the status reloaded on success, and syncing always ends |
| SyncBadge.SyncStatus.ShowResult | components/sync-status.tsx:74-76 | the sync result is shown, and the status is then reloaded as `LoadSyncStatus` would |
| SyncBadge.SyncStatus.ClearResult | components/sync-status.tsx:80 | the result badge is hidden |
| SyncBadge.SyncStatus.HandleMessage | components/sync-status.tsx:30-35 | as written: every background-sync message makes exactly one sync call (the first render's guard always passes) and ends not syncing, with the result shown and the status reloaded when the sync returns; any other message changes nothing |
| SyncBadge.SyncStatus.HandleMessageCorrected | components/sync-status.tsx:30-35 | corrected: exactly one sync call iff the message is a background-sync one and the current state is online and not syncing, then the result shown and the status reloaded when the sync returns; otherwise nothing changes |
| SyncBadge.OfflineMessageAsWritten | components/sync-status.tsx:11-35 | on a badge that shows offline, a background-sync message still calls the sync engine once |
| SyncBadge.OfflineMessageCorrected | components/sync-status.tsx:30-35 | with the corrected listener, the same message on the offline badge makes no sync call |
| SyncBadge.SyncStatus.SetOnline | components/sync-status.tsx:23-24 | the online flag follows the window event |
| Install.PwaInstall.Mount | components/pwa-install.tsx:17-25 | a standalone display marks the app installed and registers no listener; otherwise the listeners are registered |
| Install.PwaInstall.ShowsCard | components/pwa-install.tsx:84 | the card renders only when not installed, asked to show, and holding a prompt |
| Install.PwaInstall.OnBeforeInstallPrompt | components/pwa-install.tsx:28-31 | once the listeners are registered, the prompt is kept for later; nothing else changes |
| Install.PwaInstall.OnDelayElapsed | components/pwa-install.tsx:33-38 | the card shows iff it already did or the dismissed flag is unset |
| Install.PwaInstall.OnAppInstalled | components/pwa-install.tsx:42-47 | installed, card hidden, prompt dropped |
| Install.PwaInstall.HandleInstall | components/pwa-install.tsx:58-76 | nothing without a prompt or when prompting throws; otherwise card hidden and prompt dropped, and installed if accepted, otherwise as before |
| Install.PwaInstall.HandleDismiss | components/pwa-install.tsx:78-81 | card hidden and "pwa-install-dismissed" stored as "true" |
| Install.DismissThenDelay | components/pwa-install.tsx:33-81 | after a dismissal, the delayed show keeps the card hidden |
| ServiceWorker.StoreIfOk | public/sw.js:83-88 | a response is cached iff the network delivered it with status exactly 200 |
| ServiceWorker.Route | public/sw.js:63-151 | the fetch handler's reply and cache write, case by case: non-GET or foreign requests; navigation online or offline; other requests on a cache hit, or on a miss |
| ServiceWorker.PassthroughIffForeignOrNotGet | public/sw.js:68-75 | the worker leaves a request alone iff it is not GET or not same-origin |
| ServiceWorker.CacheHitIgnoresNetwork | public/sw.js:107-124 | a non-navigation cache hit is served whatever the network does |
| ServiceWorker.StoresOnlyNetworkOk | public/sw.js:83-88 | anything cached is the network's own 200 response |
| ServiceWorker.PlaceholderIffImage | public/sw.js:138-147 | with no cache entry and no network, the SVG placeholder is served iff the destination is "image"; otherwise the request fails |
| ServiceWorker.MatchIn | public/sw.js:93 | `caches.match` finds an entry iff some cache holds the key, and returns the entry of the first such cache in creation order |
| ServiceWorker.MatchInFirst | public/sw.js:93-98 | when the cache at some position is the first to hold the key, that cache's entry is the answer |
| ServiceWorker.CacheStorage.Match | public/sw.js:107 | a match exists iff some cache holds the key; it is the entry of the first such cache in creation order |
| ServiceWorker.CacheStorage.Open | public/sw.js:85 | the named cache exists afterwards; a new one is appended to the order with no entries |
| ServiceWorker.CacheStorage.Put | public/sw.js:85-87 | only that entry of that cache changes |
| ServiceWorker.CacheStorage.AddAll | public/sw.js:26 | the fetched entries are merged into the open cache; no other cache changes |
| ServiceWorker.CacheStorage.Delete | public/sw.js:50 | exactly the named cache is gone; the others keep their contents and order |
| ServiceWorker.Kept | public/sw.js:48 | the names kept are exactly "traceya-v1" and "traceya-static-v1" among those present |
| ServiceWorker.Activate | public/sw.js:39-60 | every cache other than the two current ones is deleted; those two keep their contents |
| ServiceWorker.ActivatedAll | public/sw.js:43-52 | once every name was visited, exactly the current names remain, in order, with their old contents |
| ServiceWorker.ActivateOne | public/sw.js:47-52 | one visited name is deleted iff it is not current |
| ServiceWorker.Install | public/sw.js:18-36 | the static cache is opened; all nine files are stored iff every fetch is ok (`AllFetchedOk`), else none; skipWaiting is reached iff they were stored; a newly created static cache goes to the end of the cache order |
| ServiceWorker.Precache | public/sw.js:24-31 | `addAll` on the open static cache stores every file iff every fetch is ok, and otherwise leaves the storage unchanged |
| ServiceWorker.HandleFetch | public/sw.js:63-151 | the reply is `Route`'s; the storage changes only by writing `Route`'s response into "traceya-v1", which goes to the end of the cache order when it is new |
| ServiceWorker.OnSync | public/sw.js:154-172 | only "background-sync-collections" broadcasts; then each client, in order, gets one {BACKGROUND_SYNC, tag} message |
| ServiceWorker.OneMessagePerClient | public/sw.js:163-168 | with distinct clients, no client gets two messages |
| ServiceWorker.NotificationAction | public/sw.js:190-204 | the first window client is focused, or "/dashboard" is opened when there is none |

## Left out

- I/O, concurrency and timing:
  - Promise interleavings and React's render cycle are not modelled; each handler runs as one step.
  - Timers are separate methods that a caller may invoke or not.
  - The 30-second status refresh is `LoadSyncStatus` again.
- Dexie failures:
  - The `catch` branches that log or set "Failed to save/sync collection event" after a database error are not modelled, because database operations here cannot fail.
  - The login handler's `catch` that sets "An unexpected error occurred" (app/login/page.tsx:48-49) is not modelled for the same reason: it is reached only when `login`'s database or storage calls throw.
  - `console` logging is not modelled.
- Capture.CapturePage.HandleSaveOffline, HandleSyncNow, HandleSendSms: they require a farmer id in the auth state. The source takes it with a non-null assertion and is only rendered behind the guard.
- The duplicate-`eventId` rejection is not modelled. The schema does not declare `eventId` unique, so the code does not reject duplicates.
- Dashboard.SortNewestFirst: the order of events with equal `createdAt` is left unspecified.
- Timestamps are integer milliseconds:
  - ISO-string parsing, `formatTimestamp` and `new Date()` are left out.
  - An invalid date (NaN) is left out.
  - An empty-string `lastSync` is left out.
- Floating point is not modelled:
  - Coordinates and moisture are exact reals.
  - `Math.round` in the accuracy display is left out.
- `Number()` and the i18n labels are parameters.
  - `lib/i18n` is not part of this model.
  - `toLowerCase` is folded into the pending label.
- `lib/sync` and `lib/sms` are not part of this model:
  - `Services.SyncManager` and `Services.SmsManager` only record calls and return the outcome they are given.
  - The guard inside the sync engine, if any, is unknown.
- `lib/geolocation.ts`, the camera capture itself, SHA-256, `URL.revokeObjectURL`, `generateEventId` and the species list are not part of this model: their results are parameters.
  - Only the hex step of `generateFileHash` is modelled.
- A stored "traceya_auth" entry that parses to something other than an auth state (such as "null") is not modelled: `Auth.Stored` holds a readable state, the empty string, or unparseable text. With "null" the source keeps a null state, and every later getter throws.
- Text.Last6: counts characters, where `slice(-6)` counts UTF-16 code units. A farmer id that ends in a character outside the Basic Multilingual Plane therefore accepts a different code in the source.
- Capture.RemovePhoto: photos are compared by value. The source compares object references, so two equal photo values captured twice would be told apart there.
- The service worker's `push` handler is left out: it only shows a fixed notification. `notification.close()` and `clients.claim()` are left out too.
- Cache keys are the request path and query:
  - `Vary` headers, opaque responses and `Response.clone()` are left out.
  - `addAll`'s fetches are a function `net` from path to result.
  - The runtime-cache write is applied at once rather than asynchronously.
- `components/stats-card.tsx`, `app/layout.tsx`, the collection card, the queue and settings pages, and `lib/utils` are not part of this model.
- Where the code and the written design differ, the model follows the code:
  - "Sync now" completion updates only the status, not `updatedAt`.
  - Retry does not refuse a synced event (`Dashboard.RetryLeavesSynced`).

## Findings

| source | as written | input that shows it | evidently intended | confidence | as-written member | corrected member |
|---|---|---|---|---|---|---|
| components/sync-status.tsx:30-37 | The message listener is registered once, on mount. It calls the first render's `handleManualSync`, whose guard always reads the initial state: online and not syncing. | A "BACKGROUND_SYNC" message arrives while the badge shows offline, or while a sync is running; `SyncBadge.OfflineMessageAsWritten` shows one sync call on an offline badge. | The guard uses the current connectivity and sync state, as the Sync button does; `SyncBadge.OfflineMessageCorrected` shows no call. | medium, not executed | SyncBadge.SyncStatus.HandleMessage | SyncBadge.SyncStatus.HandleMessageCorrected |

=== FILE: auth.dfy ===
/**
 * The authentication manager: a mock OTP check, the signed-in state, and its
 * copy in `localStorage` under "traceya_auth".
 */
module Auth {
  import opened Wrappers
  import opened Text
  import opened Store

  datatype AuthState = AuthState(isAuthenticated: bool, farmerId: Option<string>, token: Option<string>)

  const SignedOut := AuthState(false, None, None)

  /**
   * What "traceya_auth" holds: a state `JSON.parse` can read back, the empty
   * string (falsy, so never parsed), or text `JSON.parse` rejects.
   */
  datatype Stored = Saved(state: AuthState) | EmptyText | Unreadable

  datatype LoginResult = LoginResult(success: bool, error: Option<string>)

  const DemoOtp := "123456"
  const InvalidOtp := "Invalid OTP. Use 123456 or last 6 digits of Farmer ID."

  /** The mock check: the fixed demo code, or the last six characters of the farmer id. */
  predicate OtpAccepted(farmerId: string, otp: string) {
    otp == DemoOtp || otp == Last6(farmerId)
  }

  /** `token_${farmerId}_${Date.now()}`. */
  function Token(farmerId: string, now: nat): (t: string)
    ensures |t| == |farmerId| + 7 + |Decimal(now)|
    ensures t[..|farmerId| + 7] == "token_" + farmerId + "_"
    ensures t[|farmerId| + 7..] == Decimal(now)
  {
    "token_" + farmerId + "_" + Decimal(now)
  }

  /** Two sign-ins of one farmer at different instants get different tokens. */
  lemma TokensDiffer(farmerId: string, t1: nat, t2: nat)
    requires t1 != t2
    ensures Token(farmerId, t1) != Token(farmerId, t2)
  {
    DecimalRoundTrip(t1);
    DecimalRoundTrip(t2);
  }

  /** `isAuthenticated()`: the flag is set and the farmer id is neither null nor empty. */
  predicate Authenticated(s: AuthState) {
    s.isAuthenticated && s.farmerId.Some? && s.farmerId.value != ""
  }

  /** What `login(farmerId, otp)` does to the state and what it resolves to, at clock value `now`. */
  function LoginStep(s: AuthState, farmerId: string, otp: string, now: nat): (r: (AuthState, LoginResult))
    ensures r.1.success <==> OtpAccepted(farmerId, otp)
    ensures r.1.success ==> r.0 == AuthState(true, Some(farmerId), Some(Token(farmerId, now))) && r.1.error.None?
    ensures !r.1.success ==> r.0 == s && r.1.error == Some(InvalidOtp)
  {
    if OtpAccepted(farmerId, otp) then
      (AuthState(true, Some(farmerId), Some(Token(farmerId, now))), LoginResult(true, None))
    else
      (s, LoginResult(false, Some(InvalidOtp)))
  }

  /** A successful sign-in with a non-empty id leaves the manager authenticated. */
  lemma LoginAuthenticates(s: AuthState, farmerId: string, otp: string, now: nat)
    requires OtpAccepted(farmerId, otp) && farmerId != ""
    ensures Authenticated(LoginStep(s, farmerId, otp, now).0)
  {
  }

  /**
   * With an empty farmer id the empty code is accepted (its last six
   * characters are empty), yet the manager is not authenticated afterwards.
   */
  lemma EmptyIdLoginNotAuthenticated(s: AuthState, now: nat)
    ensures LoginStep(s, "", "", now).1.success
    ensures !Authenticated(LoginStep(s, "", "", now).0)
  {
  }

  class AuthManager {
    var state: AuthState
    /** The "traceya_auth" entry of `localStorage`. */
    var stored: Option<Stored>

    /** `new AuthManager()`: load the stored state; unreadable text is cleared away. */
    constructor(stored: Option<Stored>)
      ensures stored.None? ==> state == SignedOut && this.stored.None?
      ensures stored.Some? && stored.value.Saved? ==> state == stored.value.state && this.stored == stored
      ensures stored == Some(EmptyText) ==> state == SignedOut && this.stored == stored
      ensures stored == Some(Unreadable) ==> state == SignedOut && this.stored.None?
    {
      state := SignedOut;
      this.stored := stored;
      new;
      if stored.Some? {
        match stored.value {
          case Saved(s) => state := s;
          case EmptyText =>
          case Unreadable => ClearAuth();
        }
      }
    }

    /** Write the state to `localStorage`. */
    method SaveAuthState()
      modifies this`stored
      ensures stored == Some(Saved(state))
    {
      stored := Some(Saved(state));
    }

    /**
     * `login`: on an accepted code, sign in, save, and copy the farmer id into
     * the first settings row when there is one; otherwise change nothing.
     */
    method Login(farmerId: string, otp: string, now: nat, settings: Table<AppSettings>) returns (r: LoginResult)
      requires settings.Valid()
      modifies this, settings
      ensures settings.Valid() && settings.order == old(settings.order)
      ensures (state, r) == LoginStep(old(state), farmerId, otp, now)
      ensures r.success ==> stored == Some(Saved(state))
      ensures !r.success ==> stored == old(stored) && settings.rows == old(settings.rows)
      ensures r.success && old(settings.First()).Some? ==>
        var first := old(settings.First()).value;
        settings.rows == old(settings.rows)[first.id := first.value.(farmerId := farmerId)]
      ensures r.success && old(settings.First()).None? ==> settings.rows == old(settings.rows)
    {
      var step := LoginStep(state, farmerId, otp, now);
      if !step.1.success {
        return step.1;
      }
      state := step.0;
      SaveAuthState();
      var first := settings.First();
      if first.Some? {
        var _ := settings.Update(first.value.id, (a: AppSettings) => a.(farmerId := farmerId));
      }
      r := step.1;
    }

    /** `logout`: reset all three fields and save. */
    method Logout()
      modifies this
      ensures state == SignedOut && stored == Some(Saved(SignedOut))
    {
      state := SignedOut;
      SaveAuthState();
    }

    /** `getAuthState`: a copy; being a value, changing it cannot reach the manager. */
    function GetAuthState(): AuthState
      reads this
    {
      state
    }

    function IsAuthenticated(): bool
      reads this
    {
      Authenticated(state)
    }

    function GetFarmerId(): Option<string>
      reads this
    {
      state.farmerId
    }

    function GetToken(): Option<string>
      reads this
    {
      state.token
    }

    /** `clearAuth`: log out, then remove the stored entry. */
    method ClearAuth()
      modifies this
      ensures state == SignedOut && stored.None?
    {
      Logout();
      stored := None;
    }
  }
}

=== FILE: auth_guard.dfy ===
/** The route guard wrapped around every page: where it redirects and when it shows its children. */
module Guard {
  import opened Wrappers
  import opened Browser
  import Auth

  /** The path the guard pushes, if any, for a page that does or does not require sign-in. */
  function Redirect(requireAuth: bool, authenticated: bool): (r: Option<string>)
    ensures r == Some("/login") <==> requireAuth && !authenticated
    ensures r == Some("/dashboard") <==> !requireAuth && authenticated
    ensures r.None? <==> requireAuth == authenticated
  {
    if requireAuth && !authenticated then Some("/login")
    else if !requireAuth && authenticated then Some("/dashboard")
    else None
  }

  /** What the guard renders: the loading spinner, nothing, or its children. */
  datatype View = Spinner | Nothing | Children

  /** The guard's render: the spinner while loading, nothing for a page that does not fit, else the children. */
  function Render(isLoading: bool, requireAuth: bool, isAuthenticated: bool): (v: View)
    ensures v == Spinner <==> isLoading
    ensures v == Children ==> requireAuth == isAuthenticated
  {
    if isLoading then Spinner
    else if requireAuth && !isAuthenticated then Nothing
    else if !requireAuth && isAuthenticated then Nothing
    else Children
  }

  /**
   * Once loaded, the render and the redirect agree: the children are shown
   * exactly when no redirect is pushed, and nothing is shown exactly when one is.
   */
  lemma RenderIffNoRedirect(requireAuth: bool, authenticated: bool)
    ensures Render(false, requireAuth, authenticated) == Children <==> Redirect(requireAuth, authenticated).None?
    ensures Render(false, requireAuth, authenticated) == Nothing <==> Redirect(requireAuth, authenticated).Some?
  {
  }

  class AuthGuard {
    const requireAuth: bool
    var isLoading: bool
    var isAuthenticated: bool

    /** `requireAuth` defaults to true. */
    constructor(requireAuth: Option<bool>)
      ensures this.requireAuth == requireAuth.GetOr(true)
      ensures isLoading && !isAuthenticated
    {
      this.requireAuth := requireAuth.GetOr(true);
      isLoading := true;
      isAuthenticated := false;
    }

    /** The children are shown. */
    predicate RendersChildren()
      reads this
    {
      Render(isLoading, requireAuth, isAuthenticated) == Children
    }

    /** `checkAuth`: read the manager, stop loading, redirect if the page does not fit. */
    method CheckAuth(auth: Auth.AuthManager, router: Router)
      modifies this, router
      ensures !isLoading && isAuthenticated == auth.IsAuthenticated()
      ensures var r := Redirect(requireAuth, auth.IsAuthenticated());
        router.history == old(router.history) + (if r.Some? then [r.value] else [])
      ensures router.history != old(router.history) ==> !RendersChildren()
      ensures RendersChildren() <==> requireAuth == auth.IsAuthenticated()
    {
      var authenticated := auth.IsAuthenticated();
      isAuthenticated := authenticated;
      isLoading := false;
      var r := Redirect(requireAuth, authenticated);
      if r.Some? {
        router.Push(r.value);
      }
    }
  }

  /** A page the guard shows to a signed-in user has a farmer id to stamp events with. */
  lemma ShownProtectedPageHasFarmer(requireAuth: bool, s: Auth.AuthState)
    requires requireAuth && requireAuth == Auth.Authenticated(s)
    ensures s.farmerId.Some? && s.farmerId.value != ""
  {
  }
}

=== FILE: browser.dfy ===
/** The two browser facilities the pages share: the router's navigation history and `localStorage`. */
module Browser {
  import opened Wrappers

  /** The Next.js router, reduced to the sequence of paths handed to `router.push`. */
  class Router {
    var history: seq<string>

    constructor()
      ensures history == []
    {
      history := [];
    }

    method Push(path: string)
      modifies this
      ensures history == old(history) + [path]
    {
      history := history + [path];
    }
  }

  /** `window.localStorage`: a string-to-string map. */
  class LocalStorage {
    var items: map<string, string>

    constructor(items: map<string, string>)
      ensures this.items == items
    {
      this.items := items;
    }

    function GetItem(key: string): Option<string>
      reads this
    {
      if key in items then Some(items[key]) else None
    }

    method SetItem(key: string, value: string)
      modifies this
      ensures items == old(items)[key := value]
    {
      items := items[key := value];
    }

    method RemoveItem(key: string)
      modifies this
      ensures items == old(items) - {key}
    {
      items := items - {key};
    }
  }

  /** JavaScript truthiness of a `getItem` result: both `null` and `""` are falsy. */
  predicate IsSet(item: Option<string>) {
    item.Some? && item.value != ""
  }
}

=== FILE: camera.dfy ===
/**
 * The photo record the camera produces and the last step of its content
 * hash: the SHA-256 digest bytes written as lower-case hexadecimal.
 */
module Camera {

  type Byte = b: int | 0 <= b < 256

  /** What `capturePhoto` resolves to; `file` stands for the captured `File` object. */
  datatype PhotoData = PhotoData(blobUrl: string, hash: string, file: nat, timestamp: int)

  predicate IsHexChar(c: char) {
    ('0' <= c <= '9') || ('a' <= c <= 'f')
  }

  function HexDigit(d: int): (c: char)
    requires 0 <= d < 16
    ensures IsHexChar(c)
  {
    "0123456789abcdef"[d]
  }

  function HexValue(c: char): int
  {
    if '0' <= c <= '9' then c as int - '0' as int
    else if 'a' <= c <= 'f' then c as int - 'a' as int + 10
    else 0
  }

  /** `b.toString(16)`: one digit below 16, two from 16 on. */
  function ToString16(b: Byte): string {
    if b < 16 then [HexDigit(b)] else [HexDigit(b / 16), HexDigit(b % 16)]
  }

  /** `s.padStart(2, "0")`. */
  function PadStart2(s: string): string {
    if |s| < 2 then seq(2 - |s|, _ => '0') + s else s
  }

  /** One byte as exactly two lower-case hex digits, high nibble first. */
  function ByteToHex(b: Byte): (r: string)
    ensures |r| == 2 && IsHexChar(r[0]) && IsHexChar(r[1])
    ensures b < 16 ==> r[0] == '0'
    ensures HexValue(r[0]) * 16 + HexValue(r[1]) == b
  {
    var r := PadStart2(ToString16(b));
    if b < 16 then
      assert r == ['0', HexDigit(b)];
      DigitValueOf(b);
      r
    else
      assert r == [HexDigit(b / 16), HexDigit(b % 16)];
      DigitValueOf(b / 16);
      DigitValueOf(b % 16);
      r
  }

  lemma DigitValueOf(d: int)
    requires 0 <= d < 16
    ensures HexValue(HexDigit(d)) == d
  {
  }

  /** `hashArray.map(b => b.toString(16).padStart(2, "0")).join("")`. */
  function HexEncode(bytes: seq<Byte>): (r: string)
    ensures |r| == 2 * |bytes|
    ensures forall i :: 0 <= i < |r| ==> IsHexChar(r[i])
  {
    if bytes == [] then "" else ByteToHex(bytes[0]) + HexEncode(bytes[1..])
  }

  /** Reads a string of hex digit pairs back into bytes. */
  function HexDecode(s: string): seq<Byte>
    requires |s| % 2 == 0
    requires forall i :: 0 <= i < |s| ==> IsHexChar(s[i])
  {
    if s == [] then []
    else
      var v := HexValue(s[0]) * 16 + HexValue(s[1]);
      [v as Byte] + HexDecode(s[2..])
  }

  /** Decoding the digest's hex form gives back the digest. */
  lemma {:induction false} DecodeEncode(bytes: seq<Byte>)
    ensures HexDecode(HexEncode(bytes)) == bytes
  {
    if bytes != [] {
      var e := HexEncode(bytes);
      assert e[2..] == HexEncode(bytes[1..]);
      DecodeEncode(bytes[1..]);
    }
  }

  /** Distinct digests have distinct hex strings. */
  lemma EncodeInjective(a: seq<Byte>, b: seq<Byte>)
    requires HexEncode(a) == HexEncode(b)
    ensures a == b
  {
    DecodeEncode(a);
    DecodeEncode(b);
  }

  /** A SHA-256 digest (32 bytes) is written with 64 characters. */
  lemma DigestLength(digest: seq<Byte>)
    requires |digest| == 32
    ensures |HexEncode(digest)| == 64
  {
  }
}

=== FILE: capture.dfy ===
/**
 * The capture screen: form validation, building a new collection event, the
 * three ways of saving it (offline, "sync now", SMS) and the photo list.
 */
module Capture {
  import opened Wrappers
  import opened Text
  import opened Store
  import opened Camera
  import opened Geo
  import opened Browser
  import opened Services
  import Auth

  const SpeciesError := "Please select a species"
  const MoistureError := "Please enter a valid moisture percentage"
  const LocationError := "Location is required"
  const SaveError := "Failed to save collection event"
  const SmsError := "Failed to send SMS"

  /**
   * `validateForm`: the first failing check, in the order species, moisture,
   * location. `moisture` is what `Number(moisturePct)` gives, None for NaN.
   */
  function ValidateForm(species: string, moisturePct: string, moisture: Option<real>,
                        location: Option<LocationData>): (r: Option<string>)
    ensures r.None? <==> species != "" && moisturePct != "" && moisture.Some? && location.Some?
    ensures species == "" ==> r == Some(SpeciesError)
    ensures species != "" && (moisturePct == "" || moisture.None?) ==> r == Some(MoistureError)
    ensures species != "" && moisturePct != "" && moisture.Some? && location.None? ==> r == Some(LocationError)
  {
    if species == "" then Some(SpeciesError)
    else if moisturePct == "" || moisture.None? then Some(MoistureError)
    else if location.None? then Some(LocationError)
    else None
  }

  /** The stored form of the captured photos: only the URL and hash of each, in the same order. */
  function StoredPhotos(photos: seq<PhotoData>): (r: seq<Photo>)
    ensures |r| == |photos|
    ensures forall i :: 0 <= i < |r| ==> r[i] == Photo(photos[i].blobUrl, photos[i].hash)
  {
    seq(|photos|, i requires 0 <= i < |photos| => Photo(photos[i].blobUrl, photos[i].hash))
  }

  /** `createCollectionEvent`: a new pending event stamped with `now`. */
  function CreateCollectionEvent(eventId: string, farmerId: string, species: string, moisture: real,
                                 notes: string, photos: seq<PhotoData>, location: LocationData,
                                 now: int): (e: CollectionEvent)
    ensures e.eventId == eventId && e.farmerId == farmerId && e.species == species
    ensures e.status == Pending && e.onChainTx.None? && e.lastError.None?
    ensures e.createdAt == now && e.updatedAt == now && e.timestamp == now
    ensures e.location == Location(location.lat, location.lon, location.accuracy)
    ensures e.quality == Quality(moisture, Trim(notes))
    ensures |e.photos| == |photos|
    ensures forall i :: 0 <= i < |photos| ==> e.photos[i] == Photo(photos[i].blobUrl, photos[i].hash)
  {
    CollectionEvent(
      eventId, farmerId, species,
      Location(location.lat, location.lon, location.accuracy),
      now,
      Quality(moisture, Trim(notes)),
      StoredPhotos(photos),
      Pending, None, None, now, now)
  }

  /** `prev.filter(photo => photo !== removed)`. */
  function RemovePhoto(photos: seq<PhotoData>, removed: PhotoData): (r: seq<PhotoData>)
    ensures removed !in r
    ensures forall p :: p in r <==> p in photos && p != removed
    ensures |r| <= |photos|
  {
    if photos == [] then []
    else if photos[0] == removed then RemovePhoto(photos[1..], removed)
    else [photos[0]] + RemovePhoto(photos[1..], removed)
  }

  /** Removing a photo that occurs once drops exactly that entry and keeps the others in order. */
  lemma {:induction false} RemoveSingle(photos: seq<PhotoData>, i: nat)
    requires i < |photos|
    requires forall j :: 0 <= j < |photos| && j != i ==> photos[j] != photos[i]
    ensures RemovePhoto(photos, photos[i]) == photos[..i] + photos[i + 1..]
  {
    if i == 0 {
      NotPresentUnchanged(photos[1..], photos[0]);
      assert photos[..0] + photos[1..] == photos[1..];
    } else {
      var rest := photos[1..];
      assert rest[i - 1] == photos[i];
      RemoveSingle(rest, i - 1);
      assert photos[..i] + photos[i + 1..] == [photos[0]] + (rest[..i - 1] + rest[i..]);
    }
  }

  lemma {:induction false} NotPresentUnchanged(photos: seq<PhotoData>, p: PhotoData)
    requires p !in photos
    ensures RemovePhoto(photos, p) == photos
  {
    if photos != [] {
      NotPresentUnchanged(photos[1..], p);
    }
  }

  /** The capture form's state. */
  class CapturePage {
    var species: string
    var moisturePct: string
    var notes: string
    var photos: seq<PhotoData>
    var location: Option<LocationData>
    var isLoading: bool
    var error: string

    constructor()
      ensures species == "" && moisturePct == "" && notes == "" && photos == []
      ensures location.None? && !isLoading && error == ""
    {
      species, moisturePct, notes, photos := "", "", "", [];
      location, isLoading, error := None, false, "";
    }

    predicate IsCleared()
      reads this
    {
      species == "" && moisturePct == "" && notes == "" && photos == [] && location.None?
    }

    /** `handlePhotoCapture`: the new photo goes at the end. */
    method HandlePhotoCapture(photo: PhotoData)
      modifies this`photos
      ensures photos == old(photos) + [photo]
    {
      photos := photos + [photo];
    }

    /** `handlePhotoRemove`. */
    method HandlePhotoRemove(photo: PhotoData)
      modifies this`photos
      ensures photos == RemovePhoto(old(photos), photo)
    {
      photos := RemovePhoto(photos, photo);
    }

    method HandleLocationCapture(l: LocationData)
      modifies this`location
      ensures location == Some(l)
    {
      location := Some(l);
    }

    /** `validateForm` on the current form, with `parse` standing for `Number`. */
    function FormError(parse: string -> Option<real>): Option<string>
      reads this
    {
      ValidateForm(species, moisturePct, parse(moisturePct), location)
    }

    /** `createCollectionEvent` on the current form. */
    function Event(eventId: string, farmerId: string, parse: string -> Option<real>, now: int): CollectionEvent
      reads this
      requires FormError(parse).None?
    {
      CreateCollectionEvent(eventId, farmerId, species, parse(moisturePct).value, notes, photos,
                            location.value, now)
    }

    predicate FormIs(s: string, m: string, n: string, p: seq<PhotoData>, l: Option<LocationData>)
      reads this
    {
      species == s && moisturePct == m && notes == n && photos == p && location == l
    }

    /**
     * `handleSaveOffline`: an invalid form only sets the error; otherwise the
     * pending event is added, the form cleared and the dashboard opened.
     * `parse` is `Number`, `eventId` what `generateEventId` returns, `now` the clock.
     */
    method HandleSaveOffline(auth: Auth.AuthManager, events: Table<CollectionEvent>, router: Router,
                             parse: string -> Option<real>, eventId: string, now: int)
      returns (id: Option<nat>)
      requires events.Valid() && auth.state.farmerId.Some?
      modifies this, events, router
      ensures events.Valid()
      ensures id.Some? <==> old(FormError(parse)).None?
      ensures old(FormError(parse)).Some? ==>
        && error == old(FormError(parse)).value && isLoading == old(isLoading)
        && events.rows == old(events.rows) && router.history == old(router.history)
        && FormIs(old(species), old(moisturePct), old(notes), old(photos), old(location))
      ensures id.Some? ==>
        && id.value !in old(events.rows)
        && events.rows == old(events.rows)[id.value := old(Event(eventId, auth.state.farmerId.value, parse, now))]
        && IsCleared() && error == "" && !isLoading && router.history == old(router.history) + ["/dashboard"]
    {
      var invalid := FormError(parse);
      if invalid.Some? {
        error := invalid.value;
        return None;
      }
      var event := Event(eventId, auth.GetFarmerId().value, parse, now);
      var key := Commit(events, router, event);
      id := Some(key);
    }

    /**
     * `handleSyncNow`: like saving offline, but the event is stored as
     * uploading; `CompleteSyncNow` is the timer callback that follows.
     */
    method HandleSyncNow(auth: Auth.AuthManager, events: Table<CollectionEvent>, router: Router,
                         parse: string -> Option<real>, eventId: string, now: int)
      returns (id: Option<nat>)
      requires events.Valid() && auth.state.farmerId.Some?
      modifies this, events, router
      ensures events.Valid()
      ensures id.Some? <==> old(FormError(parse)).None?
      ensures old(FormError(parse)).Some? ==>
        && error == old(FormError(parse)).value && isLoading == old(isLoading)
        && events.rows == old(events.rows) && router.history == old(router.history)
        && FormIs(old(species), old(moisturePct), old(notes), old(photos), old(location))
      ensures id.Some? ==>
        && id.value !in old(events.rows)
        && events.rows == old(events.rows)[id.value :=
             old(Event(eventId, auth.state.farmerId.value, parse, now)).(status := Uploading)]
        && IsCleared() && error == "" && !isLoading && router.history == old(router.history) + ["/dashboard"]
    {
      var invalid := FormError(parse);
      if invalid.Some? {
        error := invalid.value;
        return None;
      }
      var event := Event(eventId, auth.GetFarmerId().value, parse, now).(status := Uploading);
      var key := Commit(events, router, event);
      id := Some(key);
    }

    /** The shared success path of saving: store the event, clear the form, open the dashboard. */
    method Commit(events: Table<CollectionEvent>, router: Router, event: CollectionEvent) returns (id: nat)
      requires events.Valid()
      modifies this, events, router
      ensures events.Valid()
      ensures id !in old(events.rows) && events.rows == old(events.rows)[id := event]
      ensures IsCleared() && error == "" && !isLoading
      ensures router.history == old(router.history) + ["/dashboard"]
    {
      isLoading := true;
      error := "";
      id := events.Add(event);
      species, moisturePct, notes, photos, location := "", "", "", [], None;
      router.Push("/dashboard");
      isLoading := false;
    }

    /** `handleSendSMS`: an invalid form only sets the error; otherwise the event is stored pending, then sent. */
    method HandleSendSms(auth: Auth.AuthManager, events: Table<CollectionEvent>, settings: Table<AppSettings>,
                         sms: SmsManager, parse: string -> Option<real>, eventId: string, now: int,
                         delivered: bool)
      returns (id: Option<nat>)
      requires events.Valid() && settings.Valid() && auth.state.farmerId.Some?
      modifies this`error, events, sms
      ensures events.Valid()
      ensures id.Some? <==> old(FormError(parse)).None?
      ensures old(FormError(parse)).Some? ==>
        && error == old(FormError(parse)).value
        && events.rows == old(events.rows) && sms.sent == old(sms.sent)
      ensures id.Some? ==>
        && id.value !in old(events.rows)
        && events.rows == old(events.rows)[id.value := old(Event(eventId, auth.state.farmerId.value, parse, now))]
      ensures id.Some? ==>
        sms.sent == old(sms.sent) + [Sms(old(Event(eventId, auth.state.farmerId.value, parse, now)), GatewayNumber(settings.First()))]
      ensures id.Some? ==> error == if delivered then old(error) else SmsError
    {
      var invalid := FormError(parse);
      if invalid.Some? {
        error := invalid.value;
        return None;
      }
      var event := Event(eventId, auth.GetFarmerId().value, parse, now);
      var key := StoreAndSend(events, settings, sms, event, delivered);
      id := Some(key);
    }

    /** The success path of the SMS fallback: store the event, then send it once. */
    method StoreAndSend(events: Table<CollectionEvent>, settings: Table<AppSettings>, sms: SmsManager,
                        event: CollectionEvent, delivered: bool) returns (id: nat)
      requires events.Valid() && settings.Valid()
      modifies this`error, events, sms
      ensures events.Valid()
      ensures id !in old(events.rows) && events.rows == old(events.rows)[id := event]
      ensures sms.sent == old(sms.sent) + [Sms(event, GatewayNumber(settings.First()))]
      ensures error == if delivered then old(error) else SmsError
    {
      id := events.Add(event);
      var ok := sms.SendViaSms(event, GatewayNumber(settings.First()), delivered);
      if !ok {
        error := SmsError;
      }
    }
  }

  /** The "sync now" timer callback: `update(id, {status: "synced"})`, nothing else. */
  method CompleteSyncNow(events: Table<CollectionEvent>, id: nat)
    requires events.Valid()
    modifies events
    ensures events.Valid()
    ensures id in old(events.rows) ==> events.rows == old(events.rows)[id := old(events.rows)[id].(status := Synced)]
    ensures id !in old(events.rows) ==> events.rows == old(events.rows)
  {
    var _ := events.Update(id, (e: CollectionEvent) => e.(status := Synced));
  }
}

=== FILE: dashboard.dfy ===
/**
 * The dashboard: which events it loads and how it counts them, manual
 * retry and delete, the SMS fallback, and the auto-sync interval it starts.
 */
module Dashboard {
  import opened Wrappers
  import opened Store
  import opened Services
  import Auth

  const RetryError := "Network timeout"
  const DefaultSyncInterval := 15
  const ListLimit := 10

  datatype Stats = Stats(synced: nat, pending: nat, uploading: nat, failed: nat)

  /** `events.filter(e => e.status === s).length`. */
  function CountStatus(events: seq<Row<CollectionEvent>>, s: Status): (n: nat)
    ensures n <= |events|
  {
    if events == [] then 0
    else (if events[0].value.status == s then 1 else 0) + CountStatus(events[1..], s)
  }

  function StatsOf(events: seq<Row<CollectionEvent>>): Stats {
    Stats(CountStatus(events, Synced), CountStatus(events, Pending),
          CountStatus(events, Uploading), CountStatus(events, Failed))
  }

  /** Every loaded event is counted in exactly one of the four cards. */
  lemma {:induction false} StatsSum(events: seq<Row<CollectionEvent>>)
    ensures var st := StatsOf(events);
      st.synced + st.pending + st.uploading + st.failed == |events|
  {
    if events != [] {
      StatsSum(events[1..]);
    }
  }

  /** `where("farmerId").equals(farmerId)`. */
  function ForFarmer(rows: seq<Row<CollectionEvent>>, farmerId: string): (r: seq<Row<CollectionEvent>>)
    ensures forall x :: x in r <==> x in rows && x.value.farmerId == farmerId
    ensures forall x: Row<CollectionEvent> :: x.value.farmerId == farmerId ==> multiset(r)[x] == multiset(rows)[x]
    ensures forall x: Row<CollectionEvent> :: x.value.farmerId != farmerId ==> multiset(r)[x] == 0
  {
    if rows == [] then []
    else
      assert rows == [rows[0]] + rows[1..];
      if rows[0].value.farmerId == farmerId then [rows[0]] + ForFarmer(rows[1..], farmerId)
      else ForFarmer(rows[1..], farmerId)
  }

  /** Newest first: `createdAt` never increases along the list. */
  ghost predicate NewestFirst(rows: seq<Row<CollectionEvent>>) {
    forall i, j :: 0 <= i < j < |rows| ==> rows[i].value.createdAt >= rows[j].value.createdAt
  }

  function InsertNewest(x: Row<CollectionEvent>, s: seq<Row<CollectionEvent>>): (r: seq<Row<CollectionEvent>>)
    requires NewestFirst(s)
    ensures NewestFirst(r)
    ensures multiset(r) == multiset(s) + multiset{x}
    ensures forall y :: y in r ==> y == x || y in s
  {
    if s == [] then [x]
    else if s[0].value.createdAt <= x.value.createdAt then [x] + s
    else
      var t := InsertNewest(x, s[1..]);
      assert s == [s[0]] + s[1..];
      HeadNewest(s);
      ConsNewest(s[0], t);
      [s[0]] + t
  }

  /** The head of a newest-first list is at least as new as every other row in it. */
  lemma HeadNewest(s: seq<Row<CollectionEvent>>)
    requires NewestFirst(s) && s != []
    ensures forall y :: y in s[1..] ==> s[0].value.createdAt >= y.value.createdAt
  {
    forall y | y in s[1..] ensures s[0].value.createdAt >= y.value.createdAt {
      var j :| 0 <= j < |s[1..]| && s[1..][j] == y;
      assert s[j + 1] == y;
    }
  }

  /** A row at least as new as every row of a newest-first list can go in front of it. */
  lemma ConsNewest(h: Row<CollectionEvent>, t: seq<Row<CollectionEvent>>)
    requires NewestFirst(t)
    requires forall y :: y in t ==> h.value.createdAt >= y.value.createdAt
    ensures NewestFirst([h] + t)
  {
    var r := [h] + t;
    forall i, j | 0 <= i < j < |r| ensures r[i].value.createdAt >= r[j].value.createdAt {
      assert r[j] == t[j - 1];
      if i > 0 {
        assert r[i] == t[i - 1];
      } else {
        assert t[j - 1] in t;
      }
    }
  }

  /** `reverse().sortBy("createdAt")`: the same rows, newest first. */
  function SortNewestFirst(rows: seq<Row<CollectionEvent>>): (r: seq<Row<CollectionEvent>>)
    ensures NewestFirst(r)
    ensures multiset(r) == multiset(rows)
  {
    if rows == [] then []
    else
      assert rows == [rows[0]] + rows[1..];
      InsertNewest(rows[0], SortNewestFirst(rows[1..]))
  }

  lemma CountCons(a: Row<CollectionEvent>, t: seq<Row<CollectionEvent>>, st: Status)
    ensures CountStatus([a] + t, st) == (if a.value.status == st then 1 else 0) + CountStatus(t, st)
  {
    assert ([a] + t)[1..] == t;
  }

  /** Counting by status does not depend on where `InsertNewest` puts the row. */
  lemma {:induction false} InsertNewestCount(x: Row<CollectionEvent>, s: seq<Row<CollectionEvent>>, st: Status)
    requires NewestFirst(s)
    ensures CountStatus(InsertNewest(x, s), st) == CountStatus(s, st) + (if x.value.status == st then 1 else 0)
  {
    if s == [] {
      CountCons(x, [], st);
    } else if s[0].value.createdAt <= x.value.createdAt {
      CountCons(x, s, st);
    } else {
      assert NewestFirst(s[1..]);
      InsertNewestCount(x, s[1..], st);
      CountCons(s[0], InsertNewest(x, s[1..]), st);
      CountCons(s[0], s[1..], st);
      assert s == [s[0]] + s[1..];
    }
  }

  /** Sorting newest first keeps every status count. */
  lemma {:induction false} SortCount(rows: seq<Row<CollectionEvent>>, st: Status)
    ensures CountStatus(SortNewestFirst(rows), st) == CountStatus(rows, st)
  {
    if rows != [] {
      SortCount(rows[1..], st);
      InsertNewestCount(rows[0], SortNewestFirst(rows[1..]), st);
    }
  }

  /** One farmer's events never have more of a status than the whole table. */
  lemma {:induction false} ForFarmerCount(rows: seq<Row<CollectionEvent>>, farmerId: string, st: Status)
    ensures CountStatus(ForFarmer(rows, farmerId), st) <= CountStatus(rows, st)
  {
    if rows != [] {
      ForFarmerCount(rows[1..], farmerId, st);
      if rows[0].value.farmerId == farmerId {
        CountCons(rows[0], ForFarmer(rows[1..], farmerId), st);
      }
    }
  }

  /** When every event is the farmer's, the farmer's query keeps them all, in order. */
  lemma {:induction false} ForFarmerAll(rows: seq<Row<CollectionEvent>>, farmerId: string)
    requires forall x :: x in rows ==> x.value.farmerId == farmerId
    ensures ForFarmer(rows, farmerId) == rows
  {
    if rows != [] {
      assert rows[0] in rows;
      ForFarmerAll(rows[1..], farmerId);
      assert rows == [rows[0]] + rows[1..];
    }
  }

  /** The query `loadEvents` runs over the table's rows. */
  function QueryByFarmer(rows: seq<Row<CollectionEvent>>, farmerId: string): seq<Row<CollectionEvent>> {
    SortNewestFirst(ForFarmer(rows, farmerId))
  }

  /** The loaded list is exactly the farmer's events, each as often as stored, newest first. */
  lemma QueryByFarmerSpec(rows: seq<Row<CollectionEvent>>, farmerId: string)
    ensures NewestFirst(QueryByFarmer(rows, farmerId))
    ensures forall x :: x in QueryByFarmer(rows, farmerId) <==> x in rows && x.value.farmerId == farmerId
    ensures forall x: Row<CollectionEvent> :: x.value.farmerId == farmerId ==>
      multiset(QueryByFarmer(rows, farmerId))[x] == multiset(rows)[x]
  {
    var f := ForFarmer(rows, farmerId);
    var q := QueryByFarmer(rows, farmerId);
    assert multiset(q) == multiset(f);
    forall x ensures x in q <==> x in rows && x.value.farmerId == farmerId {
      assert x in q <==> x in multiset(q);
      assert x in f <==> x in multiset(f);
    }
  }

  /** `events.slice(0, 10)`: the first ten events, or all of them. */
  function Visible(events: seq<Row<CollectionEvent>>): (r: seq<Row<CollectionEvent>>)
    ensures |r| == if |events| < ListLimit then |events| else ListLimit
    ensures r == events[..|r|]
  {
    if |events| <= ListLimit then events else events[..ListLimit]
  }

  /** The "View All" button: some events are not in the visible list. */
  predicate ShowViewAll(events: seq<Row<CollectionEvent>>) {
    |events| > ListLimit
  }

  lemma ViewAllIffTruncated(events: seq<Row<CollectionEvent>>)
    ensures ShowViewAll(events) <==> Visible(events) != events
  {
    if ShowViewAll(events) {
      assert |Visible(events)| < |events|;
    }
  }

  /** `settings[0]?.syncInterval || 15`: the stored interval, unless missing or zero. */
  function AutoSyncInterval(first: Option<Row<AppSettings>>): (r: int)
    ensures r != 0
    ensures first.Some? && first.value.value.syncInterval != 0 ==> r == first.value.value.syncInterval
    ensures first.None? || first.value.value.syncInterval == 0 ==> r == DefaultSyncInterval
  {
    if first.Some? && first.value.value.syncInterval != 0 then first.value.value.syncInterval
    else DefaultSyncInterval
  }

  /** The first update of `handleRetryEvent`: uploading, no error, touched now; nothing else changes. */
  function StartRetry(e: CollectionEvent, now: int): (r: CollectionEvent)
    ensures r.status == Uploading && r.lastError.None? && r.updatedAt == now
    ensures r.(status := e.status, lastError := e.lastError, updatedAt := e.updatedAt) == e
  {
    e.(status := Uploading, lastError := None, updatedAt := now)
  }

  /** The retry's timer update: synced without error, or failed with "Network timeout". */
  function FinishRetry(e: CollectionEvent, success: bool, now: int): (r: CollectionEvent)
    ensures r.status != Pending
    ensures success <==> r.status == Synced
    ensures !success <==> r.status == Failed
    ensures r.lastError == if success then None else Some(RetryError)
    ensures r.updatedAt == now
    ensures r.(status := e.status, lastError := e.lastError, updatedAt := e.updatedAt) == e
  {
    e.(status := if success then Synced else Failed,
       lastError := if success then None else Some(RetryError),
       updatedAt := now)
  }

  /** The status moves the synchronisation design allows: pending→uploading→synced|failed, failed→uploading. */
  predicate Allowed(from: Status, to: Status) {
    || (from == Pending && to == Uploading)
    || (from == Uploading && (to == Synced || to == Failed))
    || (from == Failed && to == Uploading)
  }

  /** Retrying a failed event moves it along allowed transitions and never back to pending. */
  lemma RetryTransitions(e: CollectionEvent, success: bool, t1: int, t2: int)
    requires e.status == Failed
    ensures Allowed(e.status, StartRetry(e, t1).status)
    ensures Allowed(StartRetry(e, t1).status, FinishRetry(StartRetry(e, t1), success, t2).status)
  {
  }

  /** Retry does not look at the current status: a synced event can be sent back to uploading. */
  lemma RetryLeavesSynced(e: CollectionEvent, now: int)
    requires e.status == Synced
    ensures !Allowed(e.status, StartRetry(e, now).status)
  {
  }

  class DashboardPage {
    var events: seq<Row<CollectionEvent>>
    var stats: Stats
    var isLoading: bool
    var isOnline: bool

    constructor()
      ensures events == [] && stats == Stats(0, 0, 0, 0) && isLoading && isOnline
    {
      events, stats, isLoading, isOnline := [], Stats(0, 0, 0, 0), true, true;
    }

    /** The page shows the given farmer's events from `rows`, with their counts. */
    ghost predicate Shows(rows: seq<Row<CollectionEvent>>, farmerId: string)
      reads this`events, this`stats
    {
      events == QueryByFarmer(rows, farmerId) && stats == StatsOf(events)
    }

    /** `loadEvents`: without a farmer id nothing is loaded; otherwise the farmer's events and their counts. */
    method LoadEvents(auth: Auth.AuthManager, table: Table<CollectionEvent>)
      requires table.Valid()
      modifies this`events, this`stats, this`isLoading
      ensures !isLoading
      ensures var f := auth.GetFarmerId();
        if f.None? || f.value == "" then events == old(events) && stats == old(stats)
        else Shows(table.ToArray(), f.value)
    {
      isLoading := true;
      var farmerId := auth.GetFarmerId();
      if farmerId.None? || farmerId.value == "" {
        isLoading := false;
        return;
      }
      events := QueryByFarmer(table.ToArray(), farmerId.value);
      stats := StatsOf(events);
      isLoading := false;
    }

    /** `handleRetryEvent`'s first step: mark the event uploading, then reload. */
    method RetryEvent(auth: Auth.AuthManager, table: Table<CollectionEvent>, id: nat, now: int)
      requires table.Valid()
      modifies this`events, this`stats, this`isLoading, table
      ensures table.Valid() && table.order == old(table.order) && !isLoading
      ensures table.rows == if id in old(table.rows) then old(table.rows)[id := StartRetry(old(table.rows)[id], now)]
                            else old(table.rows)
      ensures var f := auth.GetFarmerId();
        f.Some? && f.value != "" ==> Shows(table.ToArray(), f.value)
    {
      var _ := table.Update(id, (e: CollectionEvent) => StartRetry(e, now));
      LoadEvents(auth, table);
    }

    /** The retry's timer callback: `success` stands for the random draw. */
    method CompleteRetry(auth: Auth.AuthManager, table: Table<CollectionEvent>, id: nat, success: bool, now: int)
      requires table.Valid()
      modifies this`events, this`stats, this`isLoading, table
      ensures table.Valid() && table.order == old(table.order) && !isLoading
      ensures table.rows == if id in old(table.rows) then old(table.rows)[id := FinishRetry(old(table.rows)[id], success, now)]
                            else old(table.rows)
      ensures var f := auth.GetFarmerId();
        f.Some? && f.value != "" ==> Shows(table.ToArray(), f.value)
    {
      var _ := table.Update(id, (e: CollectionEvent) => FinishRetry(e, success, now));
      LoadEvents(auth, table);
    }

    /** `handleDeleteEvent`: only after confirmation, remove that one event and reload. */
    method DeleteEvent(auth: Auth.AuthManager, table: Table<CollectionEvent>, id: nat, confirmed: bool)
      requires table.Valid()
      modifies this`events, this`stats, this`isLoading, table
      ensures table.Valid()
      ensures !confirmed ==> table.rows == old(table.rows) && isLoading == old(isLoading)
      ensures !confirmed ==> events == old(events) && stats == old(stats)
      ensures confirmed ==> table.rows == old(table.rows) - {id} && !isLoading
      ensures var f := auth.GetFarmerId();
        confirmed && f.Some? && f.value != "" ==> Shows(table.ToArray(), f.value)
    {
      if confirmed {
        table.Delete(id);
        LoadEvents(auth, table);
      }
    }

    /** `handleSendSMS`: send through the stored gateway or the default; the event's row is not touched. */
    method SendSms(settings: Table<AppSettings>, sms: SmsManager, event: CollectionEvent, delivered: bool)
      requires settings.Valid()
      modifies sms
      ensures sms.sent == old(sms.sent) + [Sms(event, GatewayNumber(settings.First()))]
    {
      var gateway := GatewayNumber(settings.First());
      var _ := sms.SendViaSms(event, gateway, delivered);
    }

    /** The mount effect: default settings, first load, connectivity, and the auto-sync timer. */
    method Mount(auth: Auth.AuthManager, table: Table<CollectionEvent>, settings: Table<AppSettings>,
                 sync: SyncManager, online: bool)
      requires table.Valid() && settings.Valid()
      modifies this`events, this`stats, this`isLoading, this`isOnline, settings, sync
      ensures settings.Valid() && settings.rows != map[]
      ensures isOnline == online && !isLoading
      ensures var f := auth.GetFarmerId();
        f.Some? && f.value != "" ==> Shows(table.ToArray(), f.value)
      ensures sync.autoSyncMinutes == Some(AutoSyncInterval(settings.First()))
      ensures sync.calls == old(sync.calls)
    {
      var _ := InitializeSettings(settings);
      LoadEvents(auth, table);
      Connect(settings, sync, online);
    }

    /** The rest of the mount effect: record connectivity and start the timer from the stored interval. */
    method Connect(settings: Table<AppSettings>, sync: SyncManager, online: bool)
      requires settings.Valid()
      modifies this`isOnline, sync
      ensures isOnline == online
      ensures sync.autoSyncMinutes == Some(AutoSyncInterval(settings.First()))
      ensures sync.calls == old(sync.calls)
    {
      isOnline := online;
      sync.StartAutoSync(AutoSyncInterval(settings.First()));
    }

    /** The unmount clean-up stops the timer. */
    method Unmount(sync: SyncManager)
      modifies sync
      ensures sync.autoSyncMinutes.None? && sync.calls == old(sync.calls)
    {
      sync.StopAutoSync();
    }

    /** The `online` and `offline` window events. */
    method SetOnline(online: bool)
      modifies this`isOnline
      ensures isOnline == online
    {
      isOnline := online;
    }
  }
}

=== FILE: home.dfy ===
/** The landing route: onboarding first, then the dashboard or the sign-in screen. */
module Home {
  import opened Wrappers
  import opened Browser
  import Auth

  const OnboardingKey := "traceya_onboarding_completed"

  /** Where `/` sends the user; the sign-in state matters only once onboarding is done. */
  function HomeRoute(onboarded: Option<string>, authenticated: bool): (r: string)
    ensures !IsSet(onboarded) ==> r == "/onboarding"
    ensures IsSet(onboarded) && authenticated ==> r == "/dashboard"
    ensures IsSet(onboarded) && !authenticated ==> r == "/login"
  {
    if !IsSet(onboarded) then "/onboarding"
    else if authenticated then "/dashboard"
    else "/login"
  }

  /** Before onboarding is completed the sign-in state makes no difference. */
  lemma OnboardingIgnoresAuth(onboarded: Option<string>, a: bool, b: bool)
    requires !IsSet(onboarded)
    ensures HomeRoute(onboarded, a) == HomeRoute(onboarded, b)
  {
  }

  /** `checkAuthAndRedirect`: exactly one navigation. */
  method CheckAuthAndRedirect(storage: LocalStorage, auth: Auth.AuthManager, router: Router)
    modifies router
    ensures router.history == old(router.history) + [HomeRoute(storage.GetItem(OnboardingKey), auth.IsAuthenticated())]
  {
    var onboarded := storage.GetItem(OnboardingKey);
    if !IsSet(onboarded) {
      router.Push("/onboarding");
      return;
    }
    if auth.IsAuthenticated() {
      router.Push("/dashboard");
    } else {
      router.Push("/login");
    }
  }
}

=== FILE: location_capture.dfy ===
/** The location widget: accuracy banding, one capture attempt, and when it captures on its own. */
module Geo {
  import opened Wrappers

  /** What the geolocation wrapper resolves to. */
  datatype LocationData = LocationData(lat: real, lon: real, accuracy: real, timestamp: int)

  /** How a capture attempt ends: a fix, a thrown `Error` with its message, or a thrown non-`Error` value. */
  datatype LocateOutcome = Located(location: LocationData) | ThrewError(message: string) | ThrewOther

  const LocationFailed := "Failed to get location"

  /** The accuracy bands, best first. */
  datatype Band = Excellent | Good | Poor

  function Rank(b: Band): nat {
    match b
    case Excellent => 0
    case Good => 1
    case Poor => 2
  }

  /** `getAccuracyColor`. */
  function AccuracyColor(accuracy: real): string {
    if accuracy <= 10.0 then "text-green-600"
    else if accuracy <= 50.0 then "text-yellow-600"
    else "text-red-600"
  }

  /** `getAccuracyText`. */
  function AccuracyText(accuracy: real): string {
    if accuracy <= 10.0 then "Excellent"
    else if accuracy <= 50.0 then "Good"
    else "Poor"
  }

  /** The band an accuracy radius (metres) falls in: up to 10, up to 50, beyond. */
  function BandOf(accuracy: real): (b: Band)
    ensures b == Excellent <==> accuracy <= 10.0
    ensures b == Good <==> 10.0 < accuracy <= 50.0
    ensures b == Poor <==> 50.0 < accuracy
  {
    if accuracy <= 10.0 then Excellent else if accuracy <= 50.0 then Good else Poor
  }

  function BandColor(b: Band): string {
    match b
    case Excellent => "text-green-600"
    case Good => "text-yellow-600"
    case Poor => "text-red-600"
  }

  function BandText(b: Band): string {
    match b
    case Excellent => "Excellent"
    case Good => "Good"
    case Poor => "Poor"
  }

  /** Colour and label always describe the same band. */
  lemma ColorAndTextAgree(accuracy: real)
    ensures AccuracyColor(accuracy) == BandColor(BandOf(accuracy))
    ensures AccuracyText(accuracy) == BandText(BandOf(accuracy))
  {
  }

  /** A larger accuracy radius never gets a better band. */
  lemma BandMonotone(a: real, b: real)
    requires a <= b
    ensures Rank(BandOf(a)) <= Rank(BandOf(b))
  {
  }

  /** The auto-capture effect: runs when `autoCapture` (default true) is on and no location is held. */
  predicate ShouldAutoCapture(autoCapture: Option<bool>, location: Option<LocationData>) {
    autoCapture.GetOr(true) && location.None?
  }

  class LocationCapture {
    var isCapturing: bool
    var error: Option<string>

    constructor()
      ensures !isCapturing && error.None?
    {
      isCapturing := false;
      error := None;
    }

    /**
     * `captureLocation`: one attempt. A fix is reported to `onLocationCapture`
     * (the returned value); a failure sets the error message and reports nothing.
     */
    method CaptureLocation(outcome: LocateOutcome) returns (reported: Option<LocationData>)
      modifies this
      ensures !isCapturing
      ensures reported.Some? <==> outcome.Located?
      ensures outcome.Located? ==> reported == Some(outcome.location) && error.None?
      ensures outcome.ThrewError? ==> error == Some(outcome.message)
      ensures outcome.ThrewOther? ==> error == Some(LocationFailed)
    {
      isCapturing := true;
      error := None;
      match outcome {
        case Located(l) =>
          reported := Some(l);
        case ThrewError(m) =>
          error := Some(m);
          reported := None;
        case ThrewOther =>
          error := Some(LocationFailed);
          reported := None;
      }
      isCapturing := false;
    }

    /**
     * The auto-capture effect, run when `autoCapture` or the held `location`
     * changes: one attempt exactly when `ShouldAutoCapture` holds. A reported
     * fix becomes the held location, after which the effect no longer captures.
     */
    method AutoCapture(autoCapture: Option<bool>, location: Option<LocationData>, outcome: LocateOutcome)
      returns (reported: Option<LocationData>)
      modifies this
      ensures !ShouldAutoCapture(autoCapture, location) ==>
        reported.None? && isCapturing == old(isCapturing) && error == old(error)
      ensures ShouldAutoCapture(autoCapture, location) ==> !isCapturing && (reported.Some? <==> outcome.Located?)
      ensures ShouldAutoCapture(autoCapture, location) && outcome.Located? ==> reported == Some(outcome.location) && error.None?
      ensures ShouldAutoCapture(autoCapture, location) && outcome.ThrewError? ==> error == Some(outcome.message)
      ensures ShouldAutoCapture(autoCapture, location) && outcome.ThrewOther? ==> error == Some(LocationFailed)
      ensures reported.Some? ==> !ShouldAutoCapture(autoCapture, reported)
    {
      reported := None;
      if ShouldAutoCapture(autoCapture, location) {
        reported := CaptureLocation(outcome);
      }
    }
  }
}

=== FILE: login.dfy ===
/** The sign-in screen: input sanitising, the submit guard and the sign-in handler. */
module Login {
  import opened Wrappers
  import opened Text
  import opened Store
  import opened Browser
  import Auth

  const MissingFarmerId := "Please enter your Farmer ID"
  const MissingOtp := "Please enter the OTP"
  const MissingFarmerIdFirst := "Please enter your Farmer ID first"
  const LoginFailed := "Login failed"
  const OnboardingKey := "traceya_onboarding_completed"

  /** `s.replace(/\D/g, "")`: the digits of `s`, in order. */
  function Digits(s: string): (r: string)
    ensures |r| <= |s|
    ensures forall i :: 0 <= i < |r| ==> IsDigit(r[i])
    ensures forall c :: IsDigit(c) ==> multiset(r)[c] == multiset(s)[c]
  {
    if s == [] then ""
    else
      assert s == [s[0]] + s[1..];
      if IsDigit(s[0]) then [s[0]] + Digits(s[1..])
      else Digits(s[1..])
  }

  /** `Take(s, n)` is `s.slice(0, n)`. */
  function Take(s: string, n: nat): (r: string)
    ensures |r| == if |s| < n then |s| else n
  {
    if |s| <= n then s else s[..n]
  }

  /** The OTP field's `onChange`: keep the digits, then at most the first six of them. */
  function SanitizeOtp(raw: string): (r: string)
    ensures |r| <= 6
    ensures forall i :: 0 <= i < |r| ==> IsDigit(r[i])
    ensures |r| == if |Digits(raw)| < 6 then |Digits(raw)| else 6
    ensures r == Digits(raw)[..|r|]
  {
    Take(Digits(raw), 6)
  }

  /** `s` occurs in `t` with gaps: the digits keep their original order. */
  predicate IsSubsequence(s: string, t: string) {
    if s == [] then true
    else if t == [] then false
    else if s[0] == t[0] then IsSubsequence(s[1..], t[1..])
    else IsSubsequence(s, t[1..])
  }

  lemma {:induction false} DigitsIsSubsequence(s: string)
    ensures IsSubsequence(Digits(s), s)
  {
    if s != [] {
      DigitsIsSubsequence(s[1..]);
      if !IsDigit(s[0]) {
        SubsequenceSkip(Digits(s[1..]), s[1..], s[0]);
      }
    }
  }

  lemma {:induction false} SubsequenceSkip(s: string, t: string, c: char)
    requires IsSubsequence(s, t)
    ensures IsSubsequence(s, [c] + t)
    decreases |t|, 1
  {
    assert ([c] + t)[1..] == t;
    if s != [] && s[0] == c {
      DropHead(s, t);
    }
  }

  lemma {:induction false} DropHead(s: string, t: string)
    requires s != [] && IsSubsequence(s, t)
    ensures IsSubsequence(s[1..], t)
    decreases |t|, 0
  {
    assert [t[0]] + t[1..] == t;
    if s[0] == t[0] {
      SubsequenceSkip(s[1..], t[1..], t[0]);
    } else {
      DropHead(s, t[1..]);
      SubsequenceSkip(s[1..], t[1..], t[0]);
    }
  }

  lemma {:induction false} PrefixSubsequence(s: string, n: nat, t: string)
    requires IsSubsequence(s, t) && n <= |s|
    ensures IsSubsequence(s[..n], t)
  {
    if n > 0 && t != [] {
      if s[0] == t[0] {
        PrefixSubsequence(s[1..], n - 1, t[1..]);
        assert s[1..][..n - 1] == s[..n][1..];
      } else {
        PrefixSubsequence(s, n, t[1..]);
      }
    }
  }

  /** The sanitised code is made of characters of the input, in their original order. */
  lemma SanitizeKeepsOrder(raw: string)
    ensures IsSubsequence(SanitizeOtp(raw), raw)
  {
    DigitsIsSubsequence(raw);
    PrefixSubsequence(Digits(raw), |SanitizeOtp(raw)|, raw);
  }

  lemma {:induction false} DigitsOfDigits(s: string)
    requires forall i :: 0 <= i < |s| ==> IsDigit(s[i])
    ensures Digits(s) == s
  {
    if s != [] {
      DigitsOfDigits(s[1..]);
    }
  }

  /** Sanitising an already sanitised code changes nothing. */
  lemma SanitizeIdempotent(raw: string)
    ensures SanitizeOtp(SanitizeOtp(raw)) == SanitizeOtp(raw)
  {
    DigitsOfDigits(SanitizeOtp(raw));
  }

  /** The form's message after a sign-in attempt that `login` refused: its error, or a fallback. */
  function FailureMessage(result: Auth.LoginResult): (m: string)
    ensures m != ""
    ensures result.error.Some? && result.error.value != "" ==> m == result.error.value
    ensures !(result.error.Some? && result.error.value != "") ==> m == LoginFailed
  {
    if result.error.Some? && result.error.value != "" then result.error.value else LoginFailed
  }

  class LoginPage {
    var farmerId: string
    var otp: string
    var isLoading: bool
    var error: string

    constructor()
      ensures farmerId == "" && otp == "" && !isLoading && error == ""
    {
      farmerId, otp, isLoading, error := "", "", false, "";
    }

    /** The sign-in button is disabled while loading or while either trimmed field is empty. */
    predicate SubmitDisabled()
      reads this
    {
      isLoading || IsBlank(farmerId) || IsBlank(otp)
    }

    /** The OTP field's `onChange`. */
    method OnOtpInput(raw: string)
      modifies this`otp
      ensures otp == SanitizeOtp(raw)
    {
      otp := SanitizeOtp(raw);
    }

    /**
     * `handleLogin`: a blank farmer id is reported before a blank code, and
     * neither reaches `login`; otherwise `login` gets both trimmed, success
     * opens the dashboard, failure shows the reason. Loading ends on every path.
     */
    method HandleLogin(auth: Auth.AuthManager, settings: Table<AppSettings>, router: Router, now: nat)
      requires settings.Valid()
      modifies this`isLoading, this`error, auth, settings, router
      ensures settings.Valid() && !isLoading
      ensures IsBlank(farmerId) ==> error == MissingFarmerId
      ensures !IsBlank(farmerId) && IsBlank(otp) ==> error == MissingOtp
      ensures IsBlank(farmerId) || IsBlank(otp) ==>
        auth.state == old(auth.state) && auth.stored == old(auth.stored)
        && settings.rows == old(settings.rows) && router.history == old(router.history)
      ensures !IsBlank(farmerId) && !IsBlank(otp) ==>
        var step := Auth.LoginStep(old(auth.state), Trim(farmerId), Trim(otp), now);
        && auth.state == step.0
        && (step.1.success ==> router.history == old(router.history) + ["/dashboard"] && error == "")
        && (!step.1.success ==> router.history == old(router.history) && error == FailureMessage(step.1))
    {
      isLoading := true;
      error := "";
      if IsBlank(farmerId) {
        error := MissingFarmerId;
        isLoading := false;
        return;
      }
      if IsBlank(otp) {
        error := MissingOtp;
        isLoading := false;
        return;
      }
      Submit(auth, settings, router, Trim(farmerId), Trim(otp), now);
      isLoading := false;
    }

    /** The non-blank path of `handleLogin`: call `login`, then open the dashboard or show the reason. */
    method Submit(auth: Auth.AuthManager, settings: Table<AppSettings>, router: Router, id: string, code: string, now: nat)
      requires settings.Valid() && error == ""
      modifies this`error, auth, settings, router
      ensures settings.Valid()
      ensures var step := Auth.LoginStep(old(auth.state), id, code, now);
        && auth.state == step.0
        && (step.1.success ==> router.history == old(router.history) + ["/dashboard"] && error == "")
        && (!step.1.success ==> router.history == old(router.history) && error == FailureMessage(step.1))
    {
      var result := auth.Login(id, code, now, settings);
      if result.success {
        router.Push("/dashboard");
      } else {
        error := FailureMessage(result);
      }
    }

    /** `sendOTP`: with a blank id only the error is set; otherwise the demo-code alert is shown. */
    method SendOtp() returns (alert: Option<string>)
      modifies this`error
      ensures IsBlank(farmerId) ==> error == MissingFarmerIdFirst && alert.None?
      ensures !IsBlank(farmerId) ==> error == ""
      ensures !IsBlank(farmerId) ==> alert == Some("OTP sent to registered mobile number. For demo, use: 123456 or " + Last6(farmerId))
    {
      if IsBlank(farmerId) {
        error := MissingFarmerIdFirst;
        return None;
      }
      error := "";
      alert := Some("OTP sent to registered mobile number. For demo, use: 123456 or " + Last6(farmerId));
    }

    /** `showOnboarding`: forget that onboarding was completed and open it again. */
    method ShowOnboarding(storage: LocalStorage, router: Router)
      modifies storage, router
      ensures storage.items == old(storage.items) - {OnboardingKey}
      ensures router.history == old(router.history) + ["/onboarding"]
    {
      storage.RemoveItem(OnboardingKey);
      router.Push("/onboarding");
    }
  }

  /**
   * Pressing the enabled sign-in button: `handleLogin` passes both checks and
   * reaches `login`, so neither validation message can appear.
   */
  method EnabledSubmitPassesValidation(page: LoginPage, auth: Auth.AuthManager, settings: Table<AppSettings>,
                                       router: Router, now: nat)
    requires settings.Valid() && !page.SubmitDisabled()
    modifies page`isLoading, page`error, auth, settings, router
    ensures page.error != MissingFarmerId && page.error != MissingOtp
    ensures auth.state == Auth.LoginStep(old(auth.state), Trim(page.farmerId), Trim(page.otp), now).0
  {
    page.HandleLogin(auth, settings, router, now);
  }
}

=== FILE: photo_capture.dfy ===
/** The photo widget: a capture guarded by the photo limit, and removal. */
module Photos {
  import opened Wrappers
  import opened Camera

  const DefaultMaxPhotos: nat := 3

  /** How `capturePhoto` ends. */
  datatype CaptureOutcome = Captured(photo: PhotoData) | CaptureFailed

  /** The calls removal makes, in order. */
  datatype Effect = RevokeUrl(blobUrl: string) | ReportRemoved(photo: PhotoData)

  class PhotoCapture {
    const maxPhotos: nat
    var isCapturing: bool

    constructor(maxPhotos: Option<nat>)
      ensures this.maxPhotos == maxPhotos.GetOr(DefaultMaxPhotos) && !isCapturing
    {
      this.maxPhotos := maxPhotos.GetOr(DefaultMaxPhotos);
      isCapturing := false;
    }

    /** The "Add Photo" button is enabled. */
    predicate CanCapture(photos: seq<PhotoData>)
      reads this
    {
      !isCapturing && |photos| < maxPhotos
    }

    /**
     * `handleFileCapture`: with fewer than `maxPhotos` photos, one capture
     * attempt; `reported` is what reaches `onPhotoCapture`, `alerted` whether
     * the failure alert was shown.
     */
    method HandleFileCapture(photos: seq<PhotoData>, outcome: CaptureOutcome)
      returns (reported: seq<PhotoData>, alerted: bool)
      modifies this
      ensures |photos| >= maxPhotos ==> reported == [] && !alerted && isCapturing == old(isCapturing)
      ensures |photos| < maxPhotos ==> !isCapturing
      ensures |photos| < maxPhotos && outcome.Captured? ==> reported == [outcome.photo] && !alerted
      ensures |photos| < maxPhotos && outcome.CaptureFailed? ==> reported == [] && alerted
      ensures |photos| + |reported| <= if |photos| < maxPhotos then maxPhotos else |photos|
    {
      if |photos| >= maxPhotos {
        return [], false;
      }
      isCapturing := true;
      match outcome {
        case Captured(p) =>
          reported, alerted := [p], false;
        case CaptureFailed =>
          reported, alerted := [], true;
      }
      isCapturing := false;
    }

    /** `handleRemovePhoto`: revoke the photo's object URL, then report that photo as removed. */
    method HandleRemovePhoto(photo: PhotoData) returns (effects: seq<Effect>)
      ensures effects == [RevokeUrl(photo.blobUrl), ReportRemoved(photo)]
    {
      effects := [RevokeUrl(photo.blobUrl)];
      effects := effects + [ReportRemoved(photo)];
    }
  }
}

=== FILE: pwa_install.dfy ===
/**
 * The "Install traceya App" card: it appears a few seconds after the
 * browser offers an install prompt, unless the app is already installed or
 * the user has dismissed the card before.
 */
module Install {
  import opened Wrappers
  import opened Browser

  const DismissedKey := "pwa-install-dismissed"

  /** What the deferred prompt's `userChoice` settles to; `PromptFailed` when `prompt()` rejects. */
  datatype PromptOutcome = Accepted | Declined | PromptFailed

  class PwaInstall {
    /** The deferred `beforeinstallprompt` event, named by a number the browser chose. */
    var deferredPrompt: Option<nat>
    var showInstallPrompt: bool
    var isInstalled: bool
    /** Whether the mount effect registered the two window listeners. */
    var listening: bool

    constructor()
      ensures deferredPrompt.None? && !showInstallPrompt && !isInstalled && !listening
    {
      deferredPrompt, showInstallPrompt, isInstalled, listening := None, false, false, false;
    }

    /** The card renders only when not installed, asked to show, and holding a prompt. */
    predicate ShowsCard()
      reads this
    {
      !isInstalled && showInstallPrompt && deferredPrompt.Some?
    }

    /** The mount effect: a standalone display means installed, and then no listener is registered. */
    method Mount(standalone: bool, iosStandalone: bool)
      modifies this
      ensures standalone || iosStandalone ==> isInstalled && !listening
      ensures !(standalone || iosStandalone) ==> isInstalled == old(isInstalled) && listening
      ensures deferredPrompt == old(deferredPrompt) && showInstallPrompt == old(showInstallPrompt)
    {
      if standalone || iosStandalone {
        isInstalled := true;
        listening := false;
        return;
      }
      listening := true;
    }

    /** `beforeinstallprompt`: keep the prompt; the card waits for the delay. */
    method OnBeforeInstallPrompt(prompt: nat)
      modifies this`deferredPrompt
      ensures deferredPrompt == if listening then Some(prompt) else old(deferredPrompt)
    {
      if listening {
        deferredPrompt := Some(prompt);
      }
    }

    /** The five-second timer: show the card unless the dismissed flag is stored. */
    method OnDelayElapsed(storage: LocalStorage)
      modifies this`showInstallPrompt
      ensures showInstallPrompt == (old(showInstallPrompt) || !IsSet(storage.GetItem(DismissedKey)))
    {
      var dismissed := storage.GetItem(DismissedKey);
      if !IsSet(dismissed) {
        showInstallPrompt := true;
      }
    }

    /** `appinstalled`: installed, card hidden, prompt dropped. */
    method OnAppInstalled()
      modifies this
      ensures listening ==> isInstalled && !showInstallPrompt && deferredPrompt.None? && !ShowsCard()
      ensures !listening ==> isInstalled == old(isInstalled) && deferredPrompt == old(deferredPrompt)
      ensures !listening ==> showInstallPrompt == old(showInstallPrompt)
      ensures listening == old(listening)
    {
      if listening {
        isInstalled := true;
        showInstallPrompt := false;
        deferredPrompt := None;
      }
    }

    /**
     * `handleInstall`: nothing without a prompt or when the prompt fails;
     * otherwise the card is hidden and the prompt dropped, and the app is
     * installed only when the user accepted.
     */
    method HandleInstall(outcome: PromptOutcome)
      modifies this
      ensures old(deferredPrompt).None? || outcome == PromptFailed ==>
        deferredPrompt == old(deferredPrompt) && showInstallPrompt == old(showInstallPrompt) && isInstalled == old(isInstalled)
      ensures old(deferredPrompt).Some? && outcome != PromptFailed ==>
        deferredPrompt.None? && !showInstallPrompt && !ShowsCard()
        && isInstalled == (old(isInstalled) || outcome == Accepted)
      ensures listening == old(listening)
    {
      if deferredPrompt.None? {
        return;
      }
      if outcome == PromptFailed {
        return;
      }
      if outcome == Accepted {
        isInstalled := true;
      }
      showInstallPrompt := false;
      deferredPrompt := None;
    }

    /** `handleDismiss`: hide the card and remember the choice. */
    method HandleDismiss(storage: LocalStorage)
      modifies this`showInstallPrompt, storage
      ensures !showInstallPrompt && !ShowsCard()
      ensures storage.items == old(storage.items)[DismissedKey := "true"]
      ensures IsSet(storage.GetItem(DismissedKey))
    {
      showInstallPrompt := false;
      storage.SetItem(DismissedKey, "true");
    }
  }

  /** After a dismissal, a later delayed show leaves the card hidden. */
  method DismissThenDelay(card: PwaInstall, storage: LocalStorage)
    modifies card, storage
    ensures !card.showInstallPrompt && !card.ShowsCard()
    ensures storage.GetItem(DismissedKey) == Some("true")
  {
    card.HandleDismiss(storage);
    card.OnDelayElapsed(storage);
  }
}

=== FILE: service_worker.dfy ===
/**
 * The service worker: precaching on install, clearing old caches on
 * activate, the fetch routing between network and Cache Storage, and the
 * background-sync and notification-click events.
 */
module ServiceWorker {
  import opened Wrappers

  const CacheName := "traceya-v1"
  const StaticCache := "traceya-static-v1"
  const StaticFiles := ["/", "/login", "/dashboard", "/capture", "/queue", "/settings",
                        "/manifest.json", "/icon-192.jpg", "/icon-512.jpg"]
  const DashboardPath := "/dashboard"
  const SyncTag := "background-sync-collections"
  const BackgroundSyncType := "BACKGROUND_SYNC"
  const NotCachedMessage := "Network failed and resource not cached"
  const OfflineSvg := "<svg xmlns=\"http://www.w3.org/2000/svg\" width=\"200\" height=\"200\" viewBox=\"0 0 200 200\"><rect width=\"200\" height=\"200\" fill=\"#f0f0f0\"/><text x=\"100\" y=\"100\" text-anchor=\"middle\" dy=\".3em\" fill=\"#999\">Offline</text></svg>"

  datatype Response = Response(status: int, body: string, contentType: Option<string>)

  /** The image placeholder: a default `Response` (status 200) carrying the SVG. */
  const Placeholder := Response(200, OfflineSvg, Some("image/svg+xml"))

  /** A request; `path` is its URL's path and query, the key it is cached under. */
  datatype Request = Request(httpMethod: string, origin: string, path: string, mode: string, destination: string)

  /** What `fetch(request)` settles to. */
  datatype Fetched = Delivered(response: Response) | FetchFailed

  /**
   * What the page receives: the browser's own handling when the worker does
   * not call `respondWith`, a response, or a network error (with the
   * message of the error the worker threw, if it threw one).
   */
  datatype Reply = Passthrough | Served(response: Response) | NetworkError(message: Option<string>)

  /** The reply, and the response written to the runtime cache under the request's key, if any. */
  datatype Outcome = Outcome(reply: Reply, store: Option<Response>)

  /** Only a response with status exactly 200 is written to the runtime cache. */
  function StoreIfOk(net: Fetched): (r: Option<Response>)
    ensures r.Some? <==> net.Delivered? && net.response.status == 200
    ensures r.Some? ==> r.value == net.response
  {
    if net.Delivered? && net.response.status == 200 then Some(net.response) else None
  }

  /**
   * The fetch handler's decision. `cached` is `caches.match(request)` and
   * `dashboard` is `caches.match("/dashboard")`, both before the handler runs.
   */
  function Route(req: Request, scope: string, net: Fetched, cached: Option<Response>, dashboard: Option<Response>): (o: Outcome)
    ensures req.httpMethod != "GET" || req.origin != scope ==> o == Outcome(Passthrough, None)
    ensures req.httpMethod == "GET" && req.origin == scope && req.mode == "navigate" && net.Delivered? ==>
      o == Outcome(Served(net.response), StoreIfOk(net))
    ensures req.httpMethod == "GET" && req.origin == scope && req.mode == "navigate" && net.FetchFailed? ==>
      o.store.None? && o.reply == (if cached.Some? then Served(cached.value)
                                   else if dashboard.Some? then Served(dashboard.value)
                                   else NetworkError(None))
    ensures req.httpMethod == "GET" && req.origin == scope && req.mode != "navigate" && cached.Some? ==>
      o == Outcome(Served(cached.value), StoreIfOk(net))
    ensures req.httpMethod == "GET" && req.origin == scope && req.mode != "navigate" && cached.None? ==>
      o.store == StoreIfOk(net)
      && o.reply == (if net.Delivered? then Served(net.response)
                     else if req.destination == "image" then Served(Placeholder)
                     else NetworkError(Some(NotCachedMessage)))
  {
    if req.httpMethod != "GET" then Outcome(Passthrough, None)
    else if req.origin != scope then Outcome(Passthrough, None)
    else if req.mode == "navigate" then
      match net
      case Delivered(response) => Outcome(Served(response), StoreIfOk(net))
      case FetchFailed =>
        if cached.Some? then Outcome(Served(cached.value), None)
        else if dashboard.Some? then Outcome(Served(dashboard.value), None)
        else Outcome(NetworkError(None), None)
    else if cached.Some? then Outcome(Served(cached.value), StoreIfOk(net))
    else
      match net
      case Delivered(response) => Outcome(Served(response), StoreIfOk(net))
      case FetchFailed =>
        if req.destination == "image" then Outcome(Served(Placeholder), None)
        else Outcome(NetworkError(Some(NotCachedMessage)), None)
  }

  /** The worker answers exactly the same-origin GET requests. */
  lemma PassthroughIffForeignOrNotGet(req: Request, scope: string, net: Fetched, cached: Option<Response>, dashboard: Option<Response>)
    ensures Route(req, scope, net, cached, dashboard).reply == Passthrough <==> req.httpMethod != "GET" || req.origin != scope
  {
  }

  /** A non-navigation cache hit is served whatever the network does. */
  lemma CacheHitIgnoresNetwork(req: Request, scope: string, n1: Fetched, n2: Fetched, cached: Option<Response>, dashboard: Option<Response>)
    requires req.httpMethod == "GET" && req.origin == scope && req.mode != "navigate" && cached.Some?
    ensures Route(req, scope, n1, cached, dashboard).reply == Route(req, scope, n2, cached, dashboard).reply == Served(cached.value)
  {
  }

  /** Whatever is written to the runtime cache is the network's own 200 response. */
  lemma StoresOnlyNetworkOk(req: Request, scope: string, net: Fetched, cached: Option<Response>, dashboard: Option<Response>)
    ensures var o := Route(req, scope, net, cached, dashboard);
      o.store.Some? ==> net.Delivered? && o.store.value == net.response && net.response.status == 200
  {
  }

  /** With no cache entry and no network, only image requests get an answer: the placeholder. */
  lemma PlaceholderIffImage(req: Request, scope: string, dashboard: Option<Response>)
    requires req.httpMethod == "GET" && req.origin == scope && req.mode != "navigate"
    ensures Route(req, scope, FetchFailed, None, dashboard).reply == Served(Placeholder) <==> req.destination == "image"
    ensures req.destination != "image" ==> Route(req, scope, FetchFailed, None, dashboard).reply.NetworkError?
  {
  }

  /** Position `i` holds the first cache, in creation order, with an entry `v` for the key. */
  ghost predicate FirstHolder(names: seq<string>, caches: map<string, map<string, Response>>, key: string, i: int, v: Response) {
    && 0 <= i < |names|
    && names[i] in caches && key in caches[names[i]] && caches[names[i]][key] == v
    && forall j :: 0 <= j < i ==> names[j] !in caches || key !in caches[names[j]]
  }

  /** `caches.match(key)`: the entry of the first cache, in creation order, that holds the key. */
  function MatchIn(names: seq<string>, caches: map<string, map<string, Response>>, key: string): (r: Option<Response>)
    requires forall n :: n in names ==> n in caches
    ensures r.Some? <==> exists n :: n in names && key in caches[n]
    ensures r.Some? ==> exists i :: FirstHolder(names, caches, key, i, r.value)
  {
    if names == [] then None
    else if key in caches[names[0]] then
      assert FirstHolder(names, caches, key, 0, caches[names[0]][key]);
      Some(caches[names[0]][key])
    else
      var t := MatchIn(names[1..], caches, key);
      assert t.Some? ==> exists i :: FirstHolder(names, caches, key, i, t.value) by {
        if t.Some? {
          var i :| FirstHolder(names[1..], caches, key, i, t.value);
          assert names[i + 1] == names[1..][i];
          forall j | 0 <= j < i + 1 ensures names[j] !in caches || key !in caches[names[j]] {
            if j > 0 { assert names[j] == names[1..][j - 1]; }
          }
          assert FirstHolder(names, caches, key, i + 1, t.value);
        }
      }
      t
  }

  /** When the cache at position `i` is the first to hold the key, `caches.match` answers with its entry. */
  lemma {:induction false} MatchInFirst(names: seq<string>, caches: map<string, map<string, Response>>, key: string, i: nat)
    requires forall n :: n in names ==> n in caches
    requires i < |names| && key in caches[names[i]]
    requires forall j :: 0 <= j < i ==> key !in caches[names[j]]
    ensures MatchIn(names, caches, key) == Some(caches[names[i]][key])
  {
    if i > 0 {
      assert key !in caches[names[0]];
      forall j | 0 <= j < i - 1 ensures key !in caches[names[1..][j]] {
        assert names[1..][j] == names[j + 1];
      }
      MatchInFirst(names[1..], caches, key, i - 1);
    }
  }

  /** `names` without `x`, the rest in order. */
  function RemoveName(names: seq<string>, x: string): (r: seq<string>)
    ensures forall n :: n in r <==> n in names && n != x
  {
    if names == [] then []
    else if names[0] == x then RemoveName(names[1..], x)
    else [names[0]] + RemoveName(names[1..], x)
  }

  ghost predicate Distinct(names: seq<string>) {
    forall i, j :: 0 <= i < j < |names| ==> names[i] != names[j]
  }

  /** Cache Storage: named caches in creation order, each mapping request keys to responses. */
  class CacheStorage {
    var names: seq<string>
    var caches: map<string, map<string, Response>>

    ghost predicate Valid()
      reads this
    {
      (forall n :: n in names <==> n in caches) && Distinct(names)
    }

    constructor()
      ensures Valid() && names == [] && caches == map[]
    {
      names, caches := [], map[];
    }

    function Match(key: string): (r: Option<Response>)
      requires Valid()
      reads this
      ensures r.Some? <==> exists n :: n in caches && key in caches[n]
      ensures r.Some? ==> exists i :: FirstHolder(names, caches, key, i, r.value)
    {
      MatchIn(names, caches, key)
    }

    /** The contents of cache `name`, empty when it does not exist yet. */
    function Contents(name: string): map<string, Response>
      reads this
    {
      if name in caches then caches[name] else map[]
    }

    /** `caches.open(name)`: create the cache at the end of the order if it is new. */
    method Open(name: string)
      requires Valid()
      modifies this
      ensures Valid() && name in caches
      ensures names == if name in old(caches) then old(names) else old(names) + [name]
      ensures caches == old(caches)[name := old(Contents(name))]
    {
      if name !in caches {
        names := names + [name];
        caches := caches[name := map[]];
      }
    }

    /** `cache.put` after `caches.open(name)`. */
    method Put(name: string, key: string, response: Response)
      requires Valid()
      modifies this
      ensures Valid()
      ensures names == if name in old(caches) then old(names) else old(names) + [name]
      ensures caches == old(caches)[name := old(Contents(name))[key := response]]
    {
      Open(name);
      caches := caches[name := caches[name][key := response]];
    }

    /** `cache.addAll` once every response was ok: the entries go into the open cache `name`. */
    method AddAll(name: string, entries: map<string, Response>)
      requires Valid() && name in caches
      modifies this`caches
      ensures Valid()
      ensures caches == old(caches)[name := old(caches[name]) + entries]
    {
      caches := caches[name := caches[name] + entries];
    }

    /** `caches.delete(name)`; reports whether the cache existed. */
    method Delete(name: string) returns (existed: bool)
      requires Valid()
      modifies this
      ensures Valid()
      ensures existed == (name in old(caches))
      ensures names == RemoveName(old(names), name)
      ensures caches == old(caches) - {name}
    {
      existed := name in caches;
      RemoveDistinct(names, name);
      names := RemoveName(names, name);
      caches := caches - {name};
    }
  }

  lemma {:induction false} RemoveDistinct(names: seq<string>, x: string)
    requires Distinct(names)
    ensures Distinct(RemoveName(names, x))
  {
    if names != [] {
      RemoveDistinct(names[1..], x);
      if names[0] != x {
        assert names[0] !in names[1..];
      }
    }
  }

  lemma {:induction false} RemoveAbsent(names: seq<string>, x: string)
    requires x !in names
    ensures RemoveName(names, x) == names
  {
    if names != [] {
      RemoveAbsent(names[1..], x);
    }
  }

  /** Removing a name that occurs once, between `a` and `b`, leaves `a + b`. */
  lemma {:induction false} RemoveMiddle(a: seq<string>, x: string, b: seq<string>)
    requires x !in a && x !in b
    ensures RemoveName(a + [x] + b, x) == a + b
  {
    if a == [] {
      assert a + [x] + b == [x] + b;
      assert ([x] + b)[1..] == b;
      RemoveAbsent(b, x);
    } else {
      assert (a + [x] + b)[1..] == a[1..] + [x] + b;
      RemoveMiddle(a[1..], x, b);
      assert a + b == [a[0]] + (a[1..] + b);
    }
  }

  /** The two caches the current worker owns. */
  predicate IsCurrent(name: string) {
    name == CacheName || name == StaticCache
  }

  /** The names `activate` keeps, in order. */
  function Kept(names: seq<string>): (r: seq<string>)
    ensures forall n :: n in r <==> n in names && IsCurrent(n)
  {
    if names == [] then []
    else (if IsCurrent(names[0]) then [names[0]] else []) + Kept(names[1..])
  }

  lemma {:induction false} KeptAppend(a: seq<string>, x: string)
    ensures Kept(a + [x]) == Kept(a) + (if IsCurrent(x) then [x] else [])
  {
    if a != [] {
      assert (a + [x])[1..] == a[1..] + [x];
      KeptAppend(a[1..], x);
    } else {
      assert [x][1..] == [];
    }
  }

  /**
   * `activate`: every cache whose name is neither "traceya-v1" nor
   * "traceya-static-v1" is deleted; those two are kept as they were.
   */
  method Activate(storage: CacheStorage)
    requires storage.Valid()
    modifies storage
    ensures storage.Valid()
    ensures storage.names == Kept(old(storage.names))
    ensures storage.caches == map n | n in old(storage.caches) && IsCurrent(n) :: old(storage.caches)[n]
  {
    var cacheNames := storage.names;
    ghost var before := storage.caches;
    assert cacheNames[..0] == [] && cacheNames[0..] == cacheNames;
    var i := 0;
    while i < |cacheNames|
      invariant 0 <= i <= |cacheNames|
      invariant storage.Valid()
      invariant ActivatedUpTo(storage.names, storage.caches, cacheNames, before, i)
      invariant forall n :: n in before <==> n in cacheNames
    {
      ActivateOne(storage, cacheNames, before, i);
      i := i + 1;
    }
    ActivatedAll(storage.names, storage.caches, cacheNames, before);
  }

  /** Once every name was visited, `activate` has left the kept names and their caches. */
  lemma ActivatedAll(names: seq<string>, caches: map<string, map<string, Response>>, cacheNames: seq<string>, before: map<string, map<string, Response>>)
    requires ActivatedUpTo(names, caches, cacheNames, before, |cacheNames|)
    requires forall n :: n in before <==> n in cacheNames
    ensures names == Kept(cacheNames)
    ensures caches == map n | n in before && IsCurrent(n) :: before[n]
  {
    assert cacheNames[..|cacheNames|] == cacheNames && cacheNames[|cacheNames|..] == [];
    Survivors(caches, before, cacheNames);
  }

  lemma Survivors(c: map<string, map<string, Response>>, before: map<string, map<string, Response>>, names: seq<string>)
    requires forall n :: n in before <==> n in names
    requires forall n :: n in c <==> n in before && (IsCurrent(n) || n !in names)
    requires forall n :: n in c ==> c[n] == before[n]
    ensures c == map n | n in before && IsCurrent(n) :: before[n]
  {
  }

  /** The state of `activate` after visiting the first `i` names: those not current are gone. */
  ghost predicate ActivatedUpTo(names: seq<string>, caches: map<string, map<string, Response>>, cacheNames: seq<string>, before: map<string, map<string, Response>>, i: nat)
  {
    && i <= |cacheNames|
    && Distinct(cacheNames)
    && names == Kept(cacheNames[..i]) + cacheNames[i..]
    && CachesUpTo(caches, cacheNames, before, i)
  }

  /** The caches after visiting the first `i` names: the current ones and those not yet visited, unchanged. */
  ghost predicate CachesUpTo(caches: map<string, map<string, Response>>, cacheNames: seq<string>, before: map<string, map<string, Response>>, i: nat)
    requires i <= |cacheNames|
  {
    && (forall n :: n in caches <==> n in before && (IsCurrent(n) || n !in cacheNames[..i]))
    && (forall n :: n in caches ==> caches[n] == before[n])
  }

  /** The body of `activate`'s loop: delete `cacheNames[i]` unless it is current. */
  method ActivateOne(storage: CacheStorage, cacheNames: seq<string>, ghost before: map<string, map<string, Response>>, i: nat)
    requires i < |cacheNames| && storage.Valid()
    requires ActivatedUpTo(storage.names, storage.caches, cacheNames, before, i)
    modifies storage
    ensures storage.Valid()
    ensures ActivatedUpTo(storage.names, storage.caches, cacheNames, before, i + 1)
  {
    var name := cacheNames[i];
    ActivateStep(cacheNames, i);
    CachesStep(storage.caches, cacheNames, before, i);
    if !IsCurrent(name) {
      var _ := storage.Delete(name);
    }
  }

  /** One step of `activate`'s loop on the caches: only a name that is not current goes. */
  lemma CachesStep(caches: map<string, map<string, Response>>, cacheNames: seq<string>, before: map<string, map<string, Response>>, i: nat)
    requires i < |cacheNames| && CachesUpTo(caches, cacheNames, before, i)
    ensures IsCurrent(cacheNames[i]) ==> CachesUpTo(caches, cacheNames, before, i + 1)
    ensures !IsCurrent(cacheNames[i]) ==> CachesUpTo(caches - {cacheNames[i]}, cacheNames, before, i + 1)
  {
    assert cacheNames[..i + 1] == cacheNames[..i] + [cacheNames[i]];
  }

  /** One step of `activate`'s loop: the names still to visit follow the kept ones. */
  lemma ActivateStep(names: seq<string>, i: nat)
    requires Distinct(names) && i < |names|
    ensures IsCurrent(names[i]) ==>
      Kept(names[..i]) + names[i..] == Kept(names[..i + 1]) + names[i + 1..]
    ensures !IsCurrent(names[i]) ==>
      RemoveName(Kept(names[..i]) + names[i..], names[i]) == Kept(names[..i + 1]) + names[i + 1..]
  {
    var x := names[i];
    assert names[..i + 1] == names[..i] + [x];
    KeptAppend(names[..i], x);
    assert names[i..] == [x] + names[i + 1..];
    if !IsCurrent(x) {
      assert x !in names[i + 1..];
      assert Kept(names[..i]) + names[i..] == Kept(names[..i]) + [x] + names[i + 1..];
      RemoveMiddle(Kept(names[..i]), x, names[i + 1..]);
    }
  }

  /** `cache.addAll` accepts a response only with an ok status. */
  predicate FetchedOk(f: Fetched) {
    f.Delivered? && 200 <= f.response.status <= 299
  }

  /** Every static file came back with an ok status. */
  predicate AllFetchedOk(net: string -> Fetched) {
    forall p | p in StaticFiles :: FetchedOk(net(p))
  }

  /** When every fetch succeeded, `addAll` writes an entry for each static file. */
  lemma PrecachedCovers(net: string -> Fetched)
    requires AllFetchedOk(net)
    ensures forall p :: p in StaticFiles ==> p in Precached(net)
  {
  }

  /** What `addAll` writes when every fetch succeeded. */
  function Precached(net: string -> Fetched): map<string, Response> {
    map p | p in StaticFiles && net(p).Delivered? :: net(p).response
  }

  /**
   * `install`: open the static cache, then `addAll` the static files, which
   * stores all of them or, if any fetch fails, none; `skipWaiting` is
   * reached only when all were stored. `net` stands for the network.
   */
  method Install(storage: CacheStorage, net: string -> Fetched) returns (skipWaiting: bool)
    requires storage.Valid()
    modifies storage
    ensures storage.Valid() && StaticCache in storage.caches
    ensures storage.names == if StaticCache in old(storage.caches) then old(storage.names) else old(storage.names) + [StaticCache]
    ensures skipWaiting == AllFetchedOk(net)
    ensures skipWaiting ==> storage.caches == old(storage.caches)[StaticCache := old(storage.Contents(StaticCache)) + Precached(net)]
    ensures !skipWaiting ==> storage.caches == old(storage.caches)[StaticCache := old(storage.Contents(StaticCache))]
    ensures skipWaiting ==> forall p :: p in StaticFiles ==> p in storage.caches[StaticCache]
  {
    storage.Open(StaticCache);
    skipWaiting := Precache(storage, net);
  }

  /** The `addAll` step of `install` on the opened static cache; reports whether it stored anything. */
  method Precache(storage: CacheStorage, net: string -> Fetched) returns (stored: bool)
    requires storage.Valid() && StaticCache in storage.caches
    modifies storage`caches
    ensures storage.Valid() && StaticCache in storage.caches
    ensures stored == AllFetchedOk(net)
    ensures stored ==> storage.caches == old(storage.caches)[StaticCache := old(storage.caches[StaticCache]) + Precached(net)]
    ensures !stored ==> storage.caches == old(storage.caches)
    ensures stored ==> forall p :: p in StaticFiles ==> p in storage.caches[StaticCache]
  {
    stored := AllFetchedOk(net);
    if stored {
      PrecachedCovers(net);
      storage.AddAll(StaticCache, Precached(net));
    }
  }

  /**
   * The fetch event: route the request against the storage as it is, then
   * write the network's 200 response into "traceya-v1" when the route says so.
   */
  method HandleFetch(storage: CacheStorage, req: Request, scope: string, net: Fetched) returns (reply: Reply)
    requires storage.Valid()
    modifies storage
    ensures storage.Valid()
    ensures var o := Route(req, scope, net, old(storage.Match(req.path)), old(storage.Match(DashboardPath)));
      reply == o.reply
      && (o.store.None? ==> storage.names == old(storage.names) && storage.caches == old(storage.caches))
      && (o.store.Some? ==>
            && storage.names == (if CacheName in old(storage.caches) then old(storage.names) else old(storage.names) + [CacheName])
            && storage.caches == old(storage.caches)[CacheName := old(storage.Contents(CacheName))[req.path := o.store.value]])
  {
    var o := Route(req, scope, net, storage.Match(req.path), storage.Match(DashboardPath));
    reply := o.reply;
    if o.store.Some? {
      storage.Put(CacheName, req.path, o.store.value);
    }
  }

  /** A message posted to a client: `{type, tag}`. */
  datatype Message = Message(client: nat, messageType: string, tag: string)

  /** `sync`: for the collections tag, one message to each client, in order; otherwise none. */
  method OnSync(tag: string, clients: seq<nat>) returns (posted: seq<Message>)
    ensures tag != SyncTag ==> posted == []
    ensures tag == SyncTag ==> |posted| == |clients|
    ensures tag == SyncTag ==> forall i :: 0 <= i < |clients| ==> posted[i] == Message(clients[i], BackgroundSyncType, tag)
  {
    posted := [];
    if tag != SyncTag {
      return;
    }
    var i := 0;
    while i < |clients|
      invariant 0 <= i <= |clients|
      invariant |posted| == i
      invariant forall j :: 0 <= j < i ==> posted[j] == Message(clients[j], BackgroundSyncType, tag)
    {
      posted := posted + [Message(clients[i], BackgroundSyncType, tag)];
      i := i + 1;
    }
  }

  /** Each client gets exactly one sync message. */
  lemma OneMessagePerClient(posted: seq<Message>, clients: seq<nat>, tag: string, i: nat)
    requires |posted| == |clients| && i < |clients|
    requires forall k :: 0 <= k < |clients| ==> posted[k] == Message(clients[k], BackgroundSyncType, tag)
    requires forall a, b :: 0 <= a < b < |clients| ==> clients[a] != clients[b]
    ensures forall k :: 0 <= k < |posted| && posted[k].client == clients[i] ==> k == i
  {
  }

  datatype ClickAction = Focus(client: nat) | OpenWindow(url: string)

  /** `notificationclick`: focus the first window client, or open the dashboard. */
  function NotificationAction(windows: seq<nat>): (a: ClickAction)
    ensures windows != [] ==> a == Focus(windows[0])
    ensures windows == [] ==> a == OpenWindow(DashboardPath)
  {
    if |windows| > 0 then Focus(windows[0]) else OpenWindow(DashboardPath)
  }
}

=== FILE: services.dfy ===
/**
 * Stand-ins for the sync engine (`syncManager`) and the SMS transport
 * (`smsManager`). Their source is not part of this model, so each call
 * records that it was made and returns the outcome it is given.
 */
module Services {
  import opened Wrappers
  import opened Store

  /** What `syncPendingEvents` resolves to. */
  datatype SyncResult = SyncResult(success: bool, synced: nat, failed: nat)

  class SyncManager {
    /** The interval, in minutes, of the running auto-sync timer; None when stopped. */
    var autoSyncMinutes: Option<int>
    /** The flag `isSyncInProgress` reports. */
    var inProgress: bool
    /** How many times `syncPendingEvents` has been called. */
    var calls: nat

    constructor()
      ensures autoSyncMinutes == None && !inProgress && calls == 0
    {
      autoSyncMinutes := None;
      inProgress := false;
      calls := 0;
    }

    method StartAutoSync(minutes: int)
      modifies this
      ensures autoSyncMinutes == Some(minutes)
      ensures inProgress == old(inProgress) && calls == old(calls)
    {
      autoSyncMinutes := Some(minutes);
    }

    method StopAutoSync()
      modifies this
      ensures autoSyncMinutes == None
      ensures inProgress == old(inProgress) && calls == old(calls)
    {
      autoSyncMinutes := None;
    }

    function IsSyncInProgress(): bool
      reads this
    {
      inProgress
    }

    /** One call of `syncPendingEvents`; `outcome` is None when the call throws. */
    method SyncPendingEvents(outcome: Option<SyncResult>) returns (result: Option<SyncResult>)
      modifies this
      ensures calls == old(calls) + 1 && result == outcome
      ensures autoSyncMinutes == old(autoSyncMinutes) && inProgress == old(inProgress)
    {
      calls := calls + 1;
      result := outcome;
    }
  }

  /** One hand-off to the device's messaging channel. */
  datatype Sms = Sms(event: CollectionEvent, gateway: string)

  class SmsManager {
    /** Every `sendViaSMS` call, in order. */
    var sent: seq<Sms>

    constructor()
      ensures sent == []
    {
      sent := [];
    }

    /** `sendViaSMS(event, gateway)`; `delivered` is false when the transport throws. */
    method SendViaSms(event: CollectionEvent, gateway: string, delivered: bool) returns (ok: bool)
      modifies this
      ensures sent == old(sent) + [Sms(event, gateway)]
      ensures ok == delivered
    {
      sent := sent + [Sms(event, gateway)];
      ok := delivered;
    }
  }

  /** `settings[0]?.smsGateway || "+1234567890"`: the stored gateway unless it is missing or empty. */
  function GatewayNumber(first: Option<Row<AppSettings>>): (r: string)
    ensures r != ""
    ensures first.Some? && first.value.value.smsGateway != "" ==> r == first.value.value.smsGateway
    ensures (first.None? || first.value.value.smsGateway == "") ==> r == DefaultGateway
  {
    if first.Some? && first.value.value.smsGateway != "" then first.value.value.smsGateway
    else DefaultGateway
  }
}

=== FILE: store.dfy ===
/**
 * The local Dexie database "TraceyaDB": the record types it stores and its
 * three tables, each keyed by an auto-incremented integer.
 */
module Store {
  import opened Wrappers

  /** The four states of a collection event; nothing else can be stored. */
  datatype Status = Pending | Uploading | Synced | Failed

  datatype Location = Location(lat: real, lon: real, accuracy: real)

  datatype Quality = Quality(moisturePct: real, notes: string)

  /** A photo as stored with an event: its object URL and the hex SHA-256 of its bytes. */
  datatype Photo = Photo(blobUrl: string, hash: string)

  /** Timestamps (ISO strings in the source) are milliseconds since the epoch here. */
  datatype CollectionEvent = CollectionEvent(
    eventId: string,
    farmerId: string,
    species: string,
    location: Location,
    timestamp: int,
    quality: Quality,
    photos: seq<Photo>,
    status: Status,
    onChainTx: Option<string>,
    lastError: Option<string>,
    createdAt: int,
    updatedAt: int)

  datatype SyncAction = Create | Update | Delete

  datatype SyncQueueEntry = SyncQueueEntry(
    eventId: string,
    action: SyncAction,
    data: CollectionEvent,
    retryCount: int,
    lastAttempt: Option<int>,
    createdAt: int)

  /** The only two languages a settings row can name. */
  datatype Language = En | Hi

  datatype AppSettings = AppSettings(
    syncInterval: int,
    smsGateway: string,
    language: Language,
    farmerId: string,
    lastSync: Option<int>)

  /** The row `initializeSettings` inserts on first run. */
  const DefaultSettings := AppSettings(15, "+1234567890", En, "", None)

  /** The gateway number the SMS fallback uses when the settings give none. */
  const DefaultGateway := "+1234567890"

  /** A stored record together with the key Dexie assigned to it (the record's `id`). */
  datatype Row<T> = Row(id: nat, value: T)

  ghost predicate Increasing(ks: seq<nat>) {
    forall i, j :: 0 <= i < j < |ks| ==> ks[i] < ks[j]
  }

  function RowsOf<T>(ks: seq<nat>, m: map<nat, T>): (r: seq<Row<T>>)
    requires forall k | k in ks :: k in m
    ensures |r| == |ks|
  {
    seq(|ks|, i requires 0 <= i < |ks| => Row(ks[i], m[ks[i]]))
  }

  /** `ks` without the key `x`, the rest in the same order. */
  function Without(ks: seq<nat>, x: nat): (r: seq<nat>)
    ensures forall k :: k in r <==> k in ks && k != x
    ensures Increasing(ks) ==> Increasing(r)
  {
    if ks == [] then []
    else if ks[0] == x then Without(ks[1..], x)
    else
      var t := Without(ks[1..], x);
      assert Increasing(ks) ==> forall k :: k in t ==> ks[0] < k by {
        if Increasing(ks) {
          forall k | k in t ensures ks[0] < k {
            var j :| 0 <= j < |ks[1..]| && ks[1..][j] == k;
            assert ks[j + 1] == k;
          }
        }
      }
      IncreasingCons(ks[0], t);
      [ks[0]] + t
  }

  /** A key below every key of an increasing list can go in front of it. */
  lemma IncreasingCons(h: nat, t: seq<nat>)
    ensures Increasing(t) && (forall k :: k in t ==> h < k) ==> Increasing([h] + t)
  {
    var r := [h] + t;
    forall i, j | 0 <= i < j < |r| && Increasing(t) && (forall k :: k in t ==> h < k) ensures r[i] < r[j] {
      assert r[j] == t[j - 1];
      if i > 0 {
        assert r[i] == t[i - 1];
      } else {
        assert t[j - 1] in t;
      }
    }
  }

  /**
   * A Dexie table with an inbound auto-incremented primary key ("++id").
   * `rows` maps each key to its record; `order` lists the keys in ascending
   * order, which is the order `toArray()` returns the rows in; `nextId` is
   * the key the next `add` gets.
   */
  class Table<T> {
    var rows: map<nat, T>
    var order: seq<nat>
    var nextId: nat

    ghost predicate Valid()
      reads this
    {
      && Increasing(order)
      && (forall i :: 0 <= i < |order| ==> order[i] in rows && order[i] < nextId)
      && (forall k :: k in rows ==> k in order)
    }

    constructor()
      ensures Valid() && rows == map[] && order == []
    {
      rows := map[];
      order := [];
      nextId := 1;
    }

    /** `toArray()`: every row, in key order. */
    function ToArray(): (r: seq<Row<T>>)
      reads this
      requires Valid()
      ensures |r| == |rows|
      ensures forall i :: 0 <= i < |r| ==> r[i].id in rows && rows[r[i].id] == r[i].value
      ensures forall k :: k in rows ==> exists i :: 0 <= i < |r| && r[i].id == k
    {
      KeysCount(order, rows);
      var r := RowsOf(order, rows);
      assert forall k :: k in rows ==> exists i :: 0 <= i < |r| && r[i].id == k by {
        forall k | k in rows ensures exists i :: 0 <= i < |r| && r[i].id == k {
          var j :| 0 <= j < |order| && order[j] == k;
          assert r[j].id == k;
        }
      }
      r
    }

    /** `toArray()[0]`: the row with the smallest key, if the table is not empty. */
    function First(): (r: Option<Row<T>>)
      reads this
      requires Valid()
      ensures r.None? <==> rows == map[]
      ensures r.Some? ==> r.value.id in rows && rows[r.value.id] == r.value.value
      ensures r.Some? ==> forall k :: k in rows ==> r.value.id <= k
    {
      if order == [] then None
      else
        assert forall k :: k in rows ==> order[0] <= k by {
          forall k | k in rows ensures order[0] <= k {
            var j :| 0 <= j < |order| && order[j] == k;
          }
        }
        Some(Row(order[0], rows[order[0]]))
    }

    /** `add(value)`: store under a fresh key, leaving every existing row as it was. */
    method Add(value: T) returns (id: nat)
      requires Valid()
      modifies this
      ensures Valid()
      ensures id !in old(rows)
      ensures rows == old(rows)[id := value]
      ensures order == old(order) + [id]
    {
      id := nextId;
      rows := rows[id := value];
      order := order + [id];
      nextId := nextId + 1;
    }

    /** `update(id, changes)`: apply `change` to the row with key `id`; reports 1 if there was one, else 0. */
    method Update(id: nat, change: T -> T) returns (count: nat)
      requires Valid()
      modifies this
      ensures Valid() && order == old(order)
      ensures count == (if id in old(rows) then 1 else 0)
      ensures rows == if id in old(rows) then old(rows)[id := change(old(rows)[id])] else old(rows)
    {
      if id in rows {
        rows := rows[id := change(rows[id])];
        count := 1;
      } else {
        count := 0;
      }
    }

    /** `delete(id)`: remove the row with key `id`, if any; the other rows stay. */
    method Delete(id: nat)
      requires Valid()
      modifies this
      ensures Valid()
      ensures rows == old(rows) - {id}
      ensures order == Without(old(order), id)
    {
      WithoutKeepsKeys(order, rows, nextId, id);
      rows, order := rows - {id}, Without(order, id);
    }
  }

  /** Dropping one key from both the key list and the rows keeps the table's invariant. */
  lemma WithoutKeepsKeys<T>(order: seq<nat>, rows: map<nat, T>, nextId: nat, id: nat)
    requires Increasing(order)
    requires forall i :: 0 <= i < |order| ==> order[i] in rows && order[i] < nextId
    requires forall k :: k in rows ==> k in order
    ensures Increasing(Without(order, id))
    ensures forall i :: 0 <= i < |Without(order, id)| ==> Without(order, id)[i] in rows - {id} && Without(order, id)[i] < nextId
    ensures forall k :: k in rows - {id} ==> k in Without(order, id)
  {
    var o := Without(order, id);
    forall i | 0 <= i < |o| ensures o[i] in rows - {id} && o[i] < nextId {
      assert o[i] in o;
      var j :| 0 <= j < |order| && order[j] == o[i];
    }
  }

  /** With the keys listed once each in increasing order, there are as many rows as keys. */
  lemma KeysCount<T>(order: seq<nat>, rows: map<nat, T>)
    requires Increasing(order)
    requires forall i :: 0 <= i < |order| ==> order[i] in rows
    requires forall k :: k in rows ==> k in order
    ensures |rows| == |order|
  {
    var ks := set i | 0 <= i < |order| :: order[i];
    assert ks == rows.Keys;
    IncreasingCard(order);
  }

  lemma {:induction false} IncreasingCard(order: seq<nat>)
    requires Increasing(order)
    ensures |set i | 0 <= i < |order| :: order[i]| == |order|
  {
    if order != [] {
      var rest := order[..|order| - 1];
      IncreasingCard(rest);
      var a := set i | 0 <= i < |rest| :: rest[i];
      var b := set i | 0 <= i < |order| :: order[i];
      assert b == a + {order[|order| - 1]};
      assert order[|order| - 1] !in a;
    }
  }

  /**
   * `initializeSettings`: insert the default settings row only when the
   * settings table is empty.
   */
  method InitializeSettings(settings: Table<AppSettings>) returns (added: bool)
    requires settings.Valid()
    modifies settings
    ensures settings.Valid()
    ensures added <==> old(settings.rows) == map[]
    ensures added ==> settings.rows.Values == {DefaultSettings} && |settings.rows| == 1
    ensures !added ==> settings.rows == old(settings.rows) && settings.order == old(settings.order)
    ensures settings.rows != map[]
  {
    var existing := settings.ToArray();
    added := |existing| == 0;
    if added {
      var id := settings.Add(DefaultSettings);
      assert settings.rows == map[id := DefaultSettings];
    } else {
      assert existing[0].id in settings.rows;
    }
  }

  /** Calling `initializeSettings` a second time changes nothing. */
  method InitializeSettingsTwice(settings: Table<AppSettings>) returns (second: bool)
    requires settings.Valid()
    modifies settings
    ensures settings.Valid() && settings.rows != map[]
    ensures !second
    ensures old(settings.rows) != map[] ==> settings.rows == old(settings.rows)
    ensures old(settings.rows) == map[] ==> settings.rows.Values == {DefaultSettings} && |settings.rows| == 1
  {
    var first := InitializeSettings(settings);
    second := InitializeSettings(settings);
  }
}

=== FILE: sync_status.dfy ===
/**
 * The sync badge: how it counts events still to upload, how it picks its
 * colour, icon and label, how it formats the last sync time, and when a
 * manual or background sync may start.
 */
module SyncBadge {
  import opened Wrappers
  import opened Text
  import opened Store
  import opened Services
  import Dashboard

  const BackgroundSync := "BACKGROUND_SYNC"

  /** `where("status").anyOf(["pending", "failed"]).count()`. */
  function PendingCount(rows: seq<Row<CollectionEvent>>): (n: nat)
    ensures n <= |rows|
  {
    if rows == [] then 0
    else (if rows[0].value.status in {Pending, Failed} then 1 else 0) + PendingCount(rows[1..])
  }

  /** The badge's count is the dashboard's pending and failed cards added together. */
  lemma {:induction false} PendingCountIsPendingPlusFailed(rows: seq<Row<CollectionEvent>>)
    ensures PendingCount(rows) == Dashboard.CountStatus(rows, Pending) + Dashboard.CountStatus(rows, Failed)
  {
    if rows != [] {
      PendingCountIsPendingPlusFailed(rows[1..]);
    }
  }

  /**
   * The badge counts every farmer's events, the dashboard only the signed-in
   * farmer's: the badge never shows fewer than the dashboard's pending and
   * failed cards together, and the same number when every event is that farmer's.
   */
  lemma BadgeCountsEveryFarmer(rows: seq<Row<CollectionEvent>>, farmerId: string)
    ensures var st := Dashboard.StatsOf(Dashboard.QueryByFarmer(rows, farmerId));
      st.pending + st.failed <= PendingCount(rows)
    ensures var st := Dashboard.StatsOf(Dashboard.QueryByFarmer(rows, farmerId));
      (forall x :: x in rows ==> x.value.farmerId == farmerId) ==> st.pending + st.failed == PendingCount(rows)
  {
    var f := Dashboard.ForFarmer(rows, farmerId);
    Dashboard.SortCount(f, Pending);
    Dashboard.SortCount(f, Failed);
    Dashboard.ForFarmerCount(rows, farmerId, Pending);
    Dashboard.ForFarmerCount(rows, farmerId, Failed);
    PendingCountIsPendingPlusFailed(rows);
    if forall x :: x in rows ==> x.value.farmerId == farmerId {
      Dashboard.ForFarmerAll(rows, farmerId);
    }
  }

  const MinuteMs := 60000
  const HourMs := 3600000
  const DayMs := 86400000

  /** Whole hours are whole minutes divided by 60, rounded down again. */
  lemma MinutesToHours(d: int)
    ensures (d / MinuteMs) / 60 == d / HourMs
  {
    var m := d / MinuteMs;
    var h := m / 60;
    assert d == MinuteMs * m + d % MinuteMs;
    assert m == 60 * h + m % 60;
    assert d == HourMs * h + (MinuteMs * (m % 60) + d % MinuteMs);
  }

  /** Whole days are whole hours divided by 24, rounded down again. */
  lemma HoursToDays(d: int)
    ensures (d / HourMs) / 24 == d / DayMs
  {
    var h := d / HourMs;
    var n := h / 24;
    assert d == HourMs * h + d % HourMs;
    assert h == 24 * n + h % 24;
    assert d == DayMs * n + (HourMs * (h % 24) + d % HourMs);
  }

  /**
   * `formatLastSync`: "Never" without a time; otherwise whole minutes,
   * hours or days since then, rounded down, in the largest unit below its
   * next one.
   */
  function FormatLastSync(lastSync: Option<int>, now: int): (r: string)
    ensures lastSync.None? ==> r == "Never"
    ensures lastSync.Some? && now - lastSync.value < MinuteMs ==> r == "Just now"
    ensures lastSync.Some? && MinuteMs <= now - lastSync.value < HourMs ==>
      r == Decimal((now - lastSync.value) / MinuteMs) + "m ago"
    ensures lastSync.Some? && HourMs <= now - lastSync.value < DayMs ==>
      r == Decimal((now - lastSync.value) / HourMs) + "h ago"
    ensures lastSync.Some? && DayMs <= now - lastSync.value ==>
      r == Decimal((now - lastSync.value) / DayMs) + "d ago"
  {
    if lastSync.None? then "Never"
    else
      var diffMs := now - lastSync.value;
      var diffMins := diffMs / 60000;
      if diffMins < 1 then "Just now"
      else if diffMins < 60 then Decimal(diffMins) + "m ago"
      else
        var diffHours := diffMins / 60;
        MinutesToHours(diffMs);
        if diffHours < 24 then Decimal(diffHours) + "h ago"
        else
          MinutesToHours(diffMs);
          HoursToDays(diffMs);
          Decimal(diffHours / 24) + "d ago"
  }

  /** Which of the four badges shows, in priority order. */
  datatype Badge = OfflineBadge | SyncingBadge | PendingBadge | UpToDateBadge

  function BadgeOf(isOnline: bool, isSyncing: bool, pendingCount: nat): (b: Badge)
    ensures b == OfflineBadge <==> !isOnline
    ensures b == SyncingBadge <==> isOnline && isSyncing
    ensures b == PendingBadge <==> isOnline && !isSyncing && pendingCount > 0
    ensures b == UpToDateBadge <==> isOnline && !isSyncing && pendingCount == 0
  {
    if !isOnline then OfflineBadge
    else if isSyncing then SyncingBadge
    else if pendingCount > 0 then PendingBadge
    else UpToDateBadge
  }

  datatype Icon = WifiOff | Spinner | AlertCircle | CheckCircle

  /** `getSyncStatusColor`. */
  function StatusColor(isOnline: bool, isSyncing: bool, pendingCount: nat): string {
    if !isOnline then "bg-gray-500"
    else if isSyncing then "bg-blue-500"
    else if pendingCount > 0 then "bg-yellow-500"
    else "bg-green-500"
  }

  /** `getSyncStatusText`; the translated labels are parameters. */
  function StatusText(isOnline: bool, isSyncing: bool, pendingCount: nat,
                      offlineLabel: string, pendingLabel: string): string
  {
    if !isOnline then offlineLabel
    else if isSyncing then "Syncing..."
    else if pendingCount > 0 then Decimal(pendingCount) + " " + pendingLabel
    else "Up to date"
  }

  /** `getSyncIcon`. */
  function StatusIcon(isOnline: bool, isSyncing: bool, pendingCount: nat): Icon {
    if !isOnline then WifiOff
    else if isSyncing then Spinner
    else if pendingCount > 0 then AlertCircle
    else CheckCircle
  }

  function BadgeColor(b: Badge): string {
    match b
    case OfflineBadge => "bg-gray-500"
    case SyncingBadge => "bg-blue-500"
    case PendingBadge => "bg-yellow-500"
    case UpToDateBadge => "bg-green-500"
  }

  function BadgeIcon(b: Badge): Icon {
    match b
    case OfflineBadge => WifiOff
    case SyncingBadge => Spinner
    case PendingBadge => AlertCircle
    case UpToDateBadge => CheckCircle
  }

  function BadgeText(b: Badge, pendingCount: nat, offlineLabel: string, pendingLabel: string): string {
    match b
    case OfflineBadge => offlineLabel
    case SyncingBadge => "Syncing..."
    case PendingBadge => Decimal(pendingCount) + " " + pendingLabel
    case UpToDateBadge => "Up to date"
  }

  /** The three selectors always describe the same badge. */
  lemma SelectorsAgree(isOnline: bool, isSyncing: bool, pendingCount: nat, offlineLabel: string, pendingLabel: string)
    ensures var b := BadgeOf(isOnline, isSyncing, pendingCount);
      && StatusColor(isOnline, isSyncing, pendingCount) == BadgeColor(b)
      && StatusIcon(isOnline, isSyncing, pendingCount) == BadgeIcon(b)
      && StatusText(isOnline, isSyncing, pendingCount, offlineLabel, pendingLabel) == BadgeText(b, pendingCount, offlineLabel, pendingLabel)
  {
  }

  /** The "Sync" button. */
  predicate ShowSyncButton(isOnline: bool, isSyncing: bool, pendingCount: nat) {
    isOnline && !isSyncing && pendingCount > 0
  }

  /** The button shows exactly when the badge is the pending one. */
  lemma SyncButtonIffPendingBadge(isOnline: bool, isSyncing: bool, pendingCount: nat)
    ensures ShowSyncButton(isOnline, isSyncing, pendingCount) <==> BadgeOf(isOnline, isSyncing, pendingCount) == PendingBadge
  {
  }

  /** The guard at the top of `handleManualSync`. */
  predicate SyncMayStart(isOnline: bool, isSyncing: bool) {
    isOnline && !isSyncing
  }

  /** `event.data?.type === "BACKGROUND_SYNC"`; None when the message carries no data. */
  predicate IsBackgroundSync(messageType: Option<string>) {
    messageType == Some(BackgroundSync)
  }

  /**
   * As written: the message listener is registered once, on mount, and calls
   * the `handleManualSync` of the first render, whose guard sees the initial
   * state (online, not syncing) whatever the badge currently shows.
   */
  predicate MessageStartsSyncAsWritten(messageType: Option<string>, isOnline: bool, isSyncing: bool) {
    IsBackgroundSync(messageType) && SyncMayStart(true, false)
  }

  /** A background-sync message starts a sync while offline under the code as written. */
  lemma StaleGuardSyncsOffline()
    ensures MessageStartsSyncAsWritten(Some(BackgroundSync), false, false)
    ensures MessageStartsSyncAsWritten(Some(BackgroundSync), true, true)
    ensures !SyncMayStart(false, false) && !SyncMayStart(true, true)
  {
  }

  /** Corrected: the message goes through the guard with the current state. */
  predicate MessageStartsSync(messageType: Option<string>, isOnline: bool, isSyncing: bool) {
    IsBackgroundSync(messageType) && SyncMayStart(isOnline, isSyncing)
  }

  /**
   * The corrected listener starts a sync only where the code as written does,
   * and the two differ exactly on background-sync messages the guard would refuse.
   */
  lemma MessageSyncRespectsGuard(messageType: Option<string>, isOnline: bool, isSyncing: bool)
    ensures MessageStartsSync(messageType, isOnline, isSyncing) ==> MessageStartsSyncAsWritten(messageType, isOnline, isSyncing)
    ensures MessageStartsSyncAsWritten(messageType, isOnline, isSyncing) && !MessageStartsSync(messageType, isOnline, isSyncing)
      <==> IsBackgroundSync(messageType) && !SyncMayStart(isOnline, isSyncing)
    ensures MessageStartsSyncAsWritten(messageType, isOnline, isSyncing) <==> IsBackgroundSync(messageType)
  {
  }

  /** The result badge's text. */
  function ResultText(r: SyncResult): (t: string)
    ensures r.success ==> t == "✓ " + Decimal(r.synced) + " synced"
    ensures !r.success ==> t == "✗ " + Decimal(r.failed) + " failed"
  {
    if r.success then "✓ " + Decimal(r.synced) + " synced"
    else "✗ " + Decimal(r.failed) + " failed"
  }

  class SyncStatus {
    var isOnline: bool
    var isSyncing: bool
    var lastSync: Option<int>
    var pendingCount: nat
    var lastSyncResult: Option<SyncResult>

    constructor()
      ensures isOnline && !isSyncing && lastSync.None? && pendingCount == 0 && lastSyncResult.None?
    {
      isOnline, isSyncing, lastSync, pendingCount, lastSyncResult := true, false, None, 0, None;
    }

    /** `loadSyncStatus`, also run every 30 seconds. */
    method LoadSyncStatus(settings: Table<AppSettings>, events: Table<CollectionEvent>, sync: SyncManager)
      requires settings.Valid() && events.Valid()
      modifies this`lastSync, this`pendingCount, this`isSyncing
      ensures lastSync == if settings.First().Some? then settings.First().value.value.lastSync else old(lastSync)
      ensures pendingCount == PendingCount(events.ToArray())
      ensures isSyncing == sync.inProgress
    {
      var first := settings.First();
      var count := PendingCount(events.ToArray());
      lastSync, pendingCount, isSyncing :=
        (if first.Some? then first.value.value.lastSync else lastSync), count, sync.IsSyncInProgress();
    }

    /**
     * `handleManualSync`: refused offline or while syncing; otherwise one
     * sync call, its result shown and the status reloaded, and never left
     * syncing. `outcome` is None when the sync engine throws.
     */
    method HandleManualSync(settings: Table<AppSettings>, events: Table<CollectionEvent>,
                            sync: SyncManager, outcome: Option<SyncResult>)
      requires settings.Valid() && events.Valid()
      modifies this`isSyncing, this`lastSyncResult, this`lastSync, this`pendingCount, sync
      ensures !old(SyncMayStart(isOnline, isSyncing)) ==>
        && sync.calls == old(sync.calls) && isSyncing == old(isSyncing) && lastSyncResult == old(lastSyncResult)
        && pendingCount == old(pendingCount) && lastSync == old(lastSync)
      ensures old(SyncMayStart(isOnline, isSyncing)) ==> sync.calls == old(sync.calls) + 1 && !isSyncing
      ensures old(SyncMayStart(isOnline, isSyncing)) && outcome.Some? ==>
        lastSyncResult == outcome && Reloaded(settings, events, old(lastSync))
      ensures old(SyncMayStart(isOnline, isSyncing)) && outcome.None? ==>
        lastSyncResult == old(lastSyncResult) && pendingCount == old(pendingCount) && lastSync == old(lastSync)
      ensures sync.autoSyncMinutes == old(sync.autoSyncMinutes) && sync.inProgress == old(sync.inProgress)
    {
      if !isOnline || isSyncing {
        return;
      }
      RunSync(settings, events, sync, outcome);
    }

    /** The body of `handleManualSync` after its guard: one sync call, the result shown, syncing ended. */
    method RunSync(settings: Table<AppSettings>, events: Table<CollectionEvent>,
                   sync: SyncManager, outcome: Option<SyncResult>)
      requires settings.Valid() && events.Valid()
      modifies this`isSyncing, this`lastSyncResult, this`lastSync, this`pendingCount, sync
      ensures sync.calls == old(sync.calls) + 1 && !isSyncing
      ensures outcome.Some? ==> lastSyncResult == outcome && Reloaded(settings, events, old(lastSync))
      ensures outcome.None? ==>
        lastSyncResult == old(lastSyncResult) && pendingCount == old(pendingCount) && lastSync == old(lastSync)
      ensures sync.autoSyncMinutes == old(sync.autoSyncMinutes) && sync.inProgress == old(sync.inProgress)
    {
      isSyncing := true;
      var result := sync.SyncPendingEvents(outcome);
      if result.Some? {
        ShowResult(settings, events, sync, result.value);
      }
      isSyncing := false;
    }

    /** The badge after `loadSyncStatus`: last sync from the first settings row (else `before`), and the pending count. */
    ghost predicate Reloaded(settings: Table<AppSettings>, events: Table<CollectionEvent>, before: Option<int>)
      reads this, settings, events
      requires settings.Valid() && events.Valid()
    {
      && lastSync == (if settings.First().Some? then settings.First().value.value.lastSync else before)
      && pendingCount == PendingCount(events.ToArray())
    }

    /** The success path of a manual sync: show the result, then reload the status. */
    method ShowResult(settings: Table<AppSettings>, events: Table<CollectionEvent>, sync: SyncManager, result: SyncResult)
      requires settings.Valid() && events.Valid()
      modifies this`isSyncing, this`lastSyncResult, this`lastSync, this`pendingCount
      ensures lastSyncResult == Some(result) && Reloaded(settings, events, old(lastSync))
    {
      lastSyncResult := Some(result);
      LoadSyncStatus(settings, events, sync);
    }

    /** The five-second timer that hides the result badge. */
    method ClearResult()
      modifies this`lastSyncResult
      ensures lastSyncResult.None?
    {
      lastSyncResult := None;
    }

    /**
     * A service-worker message, as written: the listener holds the first
     * render's `handleManualSync`, whose guard reads the initial state
     * (online, not syncing) and so always passes; the state setters it
     * calls still act on the current state.
     */
    method HandleMessage(messageType: Option<string>, settings: Table<AppSettings>, events: Table<CollectionEvent>,
                         sync: SyncManager, outcome: Option<SyncResult>)
      requires settings.Valid() && events.Valid()
      modifies this`isSyncing, this`lastSyncResult, this`lastSync, this`pendingCount, sync
      ensures sync.calls == old(sync.calls) + (if old(MessageStartsSyncAsWritten(messageType, isOnline, isSyncing)) then 1 else 0)
      ensures old(MessageStartsSyncAsWritten(messageType, isOnline, isSyncing)) ==> !isSyncing
      ensures !old(MessageStartsSyncAsWritten(messageType, isOnline, isSyncing)) ==>
        && isSyncing == old(isSyncing) && lastSyncResult == old(lastSyncResult)
        && lastSync == old(lastSync) && pendingCount == old(pendingCount)
      ensures old(MessageStartsSyncAsWritten(messageType, isOnline, isSyncing)) && outcome.Some? ==>
        lastSyncResult == outcome && Reloaded(settings, events, old(lastSync))
      ensures old(MessageStartsSyncAsWritten(messageType, isOnline, isSyncing)) && outcome.None? ==>
        lastSyncResult == old(lastSyncResult) && pendingCount == old(pendingCount) && lastSync == old(lastSync)
      ensures sync.autoSyncMinutes == old(sync.autoSyncMinutes) && sync.inProgress == old(sync.inProgress)
    {
      if IsBackgroundSync(messageType) {
        RunSync(settings, events, sync, outcome);
      }
    }

    /** A service-worker message, corrected: the guard is evaluated on the current state. */
    method HandleMessageCorrected(messageType: Option<string>, settings: Table<AppSettings>, events: Table<CollectionEvent>,
                                  sync: SyncManager, outcome: Option<SyncResult>)
      requires settings.Valid() && events.Valid()
      modifies this`isSyncing, this`lastSyncResult, this`lastSync, this`pendingCount, sync
      ensures sync.calls == old(sync.calls) + (if old(MessageStartsSync(messageType, isOnline, isSyncing)) then 1 else 0)
      ensures old(MessageStartsSync(messageType, isOnline, isSyncing)) ==> !isSyncing
      ensures !old(MessageStartsSync(messageType, isOnline, isSyncing)) ==>
        && isSyncing == old(isSyncing) && lastSyncResult == old(lastSyncResult)
        && lastSync == old(lastSync) && pendingCount == old(pendingCount)
      ensures old(MessageStartsSync(messageType, isOnline, isSyncing)) && outcome.Some? ==>
        lastSyncResult == outcome && Reloaded(settings, events, old(lastSync))
      ensures old(MessageStartsSync(messageType, isOnline, isSyncing)) && outcome.None? ==>
        lastSyncResult == old(lastSyncResult) && pendingCount == old(pendingCount) && lastSync == old(lastSync)
      ensures sync.autoSyncMinutes == old(sync.autoSyncMinutes) && sync.inProgress == old(sync.inProgress)
    {
      if IsBackgroundSync(messageType) {
        HandleManualSync(settings, events, sync, outcome);
      }
    }

    /** The `online` and `offline` window events. */
    method SetOnline(online: bool)
      modifies this`isOnline
      ensures isOnline == online
    {
      isOnline := online;
    }
  }

  /**
   * The as-written listener on a badge that shows offline: a background-sync
   * message still reaches the sync engine, once.
   */
  method OfflineMessageAsWritten() returns (calls: nat, syncing: bool)
    ensures calls == 1 && !syncing
  {
    var badge := new SyncStatus();
    badge.SetOnline(false);
    var settings := new Table<AppSettings>();
    var events := new Table<CollectionEvent>();
    var sync := new SyncManager();
    badge.HandleMessage(Some(BackgroundSync), settings, events, sync, None);
    calls, syncing := sync.calls, badge.isSyncing;
  }

  /** The corrected listener on the same offline badge does not call the sync engine. */
  method OfflineMessageCorrected() returns (calls: nat, syncing: bool)
    ensures calls == 0 && !syncing
  {
    var badge := new SyncStatus();
    badge.SetOnline(false);
    var settings := new Table<AppSettings>();
    var events := new Table<CollectionEvent>();
    var sync := new SyncManager();
    badge.HandleMessageCorrected(Some(BackgroundSync), settings, events, sync, None);
    calls, syncing := sync.calls, badge.isSyncing;
  }
}

=== FILE: text.dfy ===
/**
 * The string operations of JavaScript that the application relies on:
 * `String.prototype.trim`, `slice(-n)`, `Number.prototype.toString()` for
 * non-negative integers and the `\D` character class.
 */
module Text {

  /** The characters `trim` removes: ECMAScript's WhiteSpace and LineTerminator code points. */
  predicate IsSpace(c: char) {
    || c == ' ' || c == '\t' || c == '\n' || c == '\r'
    || c == '\U{B}' || c == '\U{C}' || c == '\U{A0}' || c == '\U{1680}'
    || ('\U{2000}' <= c <= '\U{200A}')
    || c == '\U{2028}' || c == '\U{2029}' || c == '\U{202F}' || c == '\U{205F}'
    || c == '\U{3000}' || c == '\U{FEFF}'
  }

  predicate IsDigit(c: char) {
    '0' <= c <= '9'
  }

  predicate AllSpace(s: string) {
    forall i :: 0 <= i < |s| ==> IsSpace(s[i])
  }

  /** `trimStart`: the longest suffix of `s` that does not begin with white space. */
  function TrimStart(s: string): (r: string)
    ensures |r| <= |s| && r == s[|s| - |r|..]
    ensures AllSpace(s[..|s| - |r|])
    ensures r != [] ==> !IsSpace(r[0])
  {
    if |s| > 0 && IsSpace(s[0]) then
      var t := TrimStart(s[1..]);
      assert s[1..][..|s| - 1 - |t|] == s[1..|s| - |t|];
      t
    else s
  }

  /** `trimEnd`: the longest prefix of `s` that does not end with white space. */
  function TrimEnd(s: string): (r: string)
    ensures |r| <= |s| && r == s[..|r|]
    ensures AllSpace(s[|r|..])
    ensures r != [] ==> !IsSpace(r[|r| - 1])
  {
    if |s| > 0 && IsSpace(s[|s| - 1]) then
      var t := TrimEnd(s[..|s| - 1]);
      assert s[..|s| - 1][|t|..] == s[|t|..|s| - 1];
      t
    else s
  }

  /** `trim`: `s` without its leading and trailing white space. */
  function Trim(s: string): string {
    TrimEnd(TrimStart(s))
  }

  /** JavaScript's `!s.trim()`: the string is empty once trimmed. */
  predicate IsBlank(s: string) {
    Trim(s) == ""
  }

  /** Trimming keeps a contiguous middle part of the input, with no white space at either end. */
  lemma TrimIsMiddle(s: string)
    ensures exists i, j :: 0 <= i <= j <= |s| && Trim(s) == s[i..j]
              && AllSpace(s[..i]) && AllSpace(s[j..])
    ensures Trim(s) != [] ==> !IsSpace(Trim(s)[0]) && !IsSpace(Trim(s)[|Trim(s)| - 1])
  {
    var a := TrimStart(s);
    var i := |s| - |a|;
    var j := i + |TrimEnd(a)|;
    assert Trim(s) == s[i..j];
    assert s[j..] == a[|TrimEnd(a)|..];
    if Trim(s) != [] {
      assert Trim(s)[0] == a[0];
    }
  }

  /** A string is blank exactly when every character of it is white space. */
  lemma BlankIffAllSpace(s: string)
    ensures IsBlank(s) <==> AllSpace(s)
  {
    var a := TrimStart(s);
    if IsBlank(s) {
      assert a[|TrimEnd(a)|..] == a;
      assert a == [];
      assert s[..|s| - |a|] == s;
    }
  }

  /** Trimming twice is trimming once. */
  lemma TrimIdempotent(s: string)
    ensures Trim(Trim(s)) == Trim(s)
  {
    var t := Trim(s);
    TrimIsMiddle(s);
    if t != [] {
      assert TrimStart(t) == t;
      assert TrimEnd(t) == t;
    }
  }

  /** `s.slice(-6)`: the last six characters, or all of `s` when it is shorter. */
  function Last6(s: string): (r: string)
    ensures |r| == if |s| < 6 then |s| else 6
    ensures s == s[..|s| - |r|] + r
  {
    if |s| <= 6 then s else s[|s| - 6..]
  }

  function DigitChar(d: nat): char
    requires d < 10
  {
    "0123456789"[d]
  }

  function DigitValue(c: char): nat
    requires IsDigit(c)
  {
    (c as int - '0' as int) as nat
  }

  /** `String(n)` for a non-negative integer: its decimal digits, most significant first. */
  function Decimal(n: nat): (r: string)
    ensures r != []
    ensures forall i :: 0 <= i < |r| ==> IsDigit(r[i])
    ensures |r| > 1 ==> r[0] != '0'
  {
    if n < 10 then [DigitChar(n)] else Decimal(n / 10) + [DigitChar(n % 10)]
  }

  /** The number a string of decimal digits denotes. */
  function DecimalValue(s: string): nat
    requires forall i :: 0 <= i < |s| ==> IsDigit(s[i])
  {
    if s == [] then 0 else 10 * DecimalValue(s[..|s| - 1]) + DigitValue(s[|s| - 1])
  }

  /** Reading back what `Decimal` wrote gives the number again, so distinct numbers print differently. */
  lemma {:induction false} DecimalRoundTrip(n: nat)
    ensures DecimalValue(Decimal(n)) == n
  {
    if n >= 10 {
      DecimalRoundTrip(n / 10);
      var d := Decimal(n);
      assert d[..|d| - 1] == Decimal(n / 10);
    }
  }
}

=== FILE: wrappers.dfy ===
/** Optional values: JavaScript's `null`/`undefined` next to a present value. */
module Wrappers {

  datatype Option<+T> = None | Some(value: T) {

    /** The value, or `default` when absent (the `?? default` of the source). */
    function GetOr(default: T): T {
      match this
      case Some(v) => v
      case None => default
    }
  }
}
